=== FILE: README.md ===
# Basque Parliament data-preparation scripts, modelled in Dafny

This project models the four data-preparation scripts of the Basque Parliament
ASR recipe (`egs/basque_parliament_1_gttsehu/ASR/dev/local/`) as pure functions
over sequences, strings and maps, and proves what each script promises.

- **Record normaliser** (`prepare_manifest.py`, module `Normalizer`). Each
  `basqueP*.json` utterance manifest becomes a supervisions manifest and a
  recordings manifest. Every utterance yields one supervision. A recording is
  written for the first utterance of each audio id whose audio file can be read.
  The audio id is the basename without its last extension. The seen-set starts
  empty for every input file. A failed probe does not mark the id as seen, so a
  later utterance with the same id is probed again.
- **Kaldi table exporter** (`data_prep.py`, module `Exporter`). One manifest
  becomes three line-aligned tables: `text`, `wav.scp` and `utt2spk`. They are
  keyed by `client_id + "_" + basename(path).split('.')[0]`. A fixed character
  lexicon is also written.
- **Transcript tree builder** (`generate_transcripts.py`, module `Transcripts`).
  A supervision line writes when it decodes to an object whose `recording_id` is
  a string with at least four `_`-separated fields and whose speaker is a string
  or absent. Its directory and file paths must also hold no NUL character. Such
  a line appends one entry, `speaker-S_D_Q-timestamps text`, to
  `out/split/speaker/S_D_Q/speaker-S_D_Q.trans.txt`. Every other line is skipped.
  An entry is one write. It spans several physical lines when a field holds a
  newline. The filesystem is a map from path to the entries appended so far.
- **Path rewriter** (`update_audio_filepaths.py`, module `Rewriter`). Every
  record's `audio_filepath` becomes `join(new_dir, basename(old))`, and each
  manifest is overwritten.

Shared modules:

- `Text` models the Python string methods the scripts call: `split`, `join` and
  `replace`. It also models `rfind`, which `posixpath` uses inside `basename`
  and `splitext`, and a substring test used to state the `replace` lemmas.
- `PosixPath` models `basename`, the root half of `splitext`, and `join`.
- `Json` models a decoded JSON line and the run that stops at the first line
  that raises.
- `Pipeline` relates the naming conventions of the scripts to each other.

Two kinds of failure are modelled.

- An exception nobody catches ends a run. In the normaliser and the exporter,
  which write as they go, the outputs then hold what the earlier lines produced;
  `Json.DecodeUntilFailure` models this. The rewriter collects a manifest's new
  lines before writing any of them, so a manifest with a failing line keeps its
  old content, and the manifests after it are not touched; `Rewriter.RewriteAll`
  models this.
- In the transcript builder, a line whose JSON, keys or recording id are bad is
  skipped inside the `try`. Reading the shard's text happens outside it (see
  "Left out").

The audio probe (`soundfile.SoundFile`) is a parameter of type
`string -> Option<AudioInfo>`. The list of input files, which the scripts get
from `glob`, is a parameter too.

Three facts about the code shape the model:

- **Malformed records.** Only `generate_transcripts.py` catches them. In the
  other three scripts a missing key, invalid JSON or a non-string path ends the
  whole run.
- **Rewriter scope.** The rewriter changes only `audio_filepath`, and moves it
  into the new directory itself. It does not touch `sources[0].source` of
  recording records, and it does not sort files into subfolders by extension.
- **Two ways to drop an extension.** The exporter cuts the file name at its
  first dot, and the normaliser at its last. So for `a.b.wav` the exporter uses
  `a`, while the normaliser's audio id is `a.b` (`Pipeline.StemsDisagreeOnTwoDots`).

## Model

| member | source | states |
|---|---|---|
| Json.DecodeUntilFailure | egs/basque_parliament_1_gttsehu/ASR/dev/local/prepare_manifest.py:45-51 | lines are handled in order; item i is what line i decodes to; the run is aborted exactly when it stops before the end, and then the line it stops at is one that raises |
| Json.GetStr | egs/basque_parliament_1_gttsehu/ASR/dev/local/update_audio_filepaths.py:22-23 | a key used as a string succeeds exactly on an object holding that key with a string value, and yields that string |
| Text.JoinSplit | egs/basque_parliament_1_gttsehu/ASR/dev/local/generate_transcripts.py:34-42 | joining the pieces of `s.split(c)` with `c` gives `s` back |
| Text.SplitJoin | egs/basque_parliament_1_gttsehu/ASR/dev/local/generate_transcripts.py:34-42 | splitting a join of separator-free pieces gives the pieces back |
| Text.SplitLength | egs/basque_parliament_1_gttsehu/ASR/dev/local/generate_transcripts.py:34-35 | `split` yields one more piece than there are separators, so "fewer than 4 fields" means "fewer than 3 underscores" |
| Text.FirstPieceIsLongestFreePrefix | egs/basque_parliament_1_gttsehu/ASR/dev/local/data_prep.py:14 | `split(c)[0]` is a `c`-free prefix followed by `c` or by the end of the string |
| Text.FirstPieceBeforeSeparator | egs/basque_parliament_1_gttsehu/ASR/dev/local/data_prep.py:14 | a `c`-free piece followed by `c` is exactly `split(c)[0]`, whatever comes after |
| Text.StripPrefixAndSuffix | egs/basque_parliament_1_gttsehu/ASR/dev/local/generate_transcripts.py:20 | removing every prefix copy and then every suffix copy from `prefix + middle + suffix` leaves the middle, when neither occurs elsewhere |
| Text.RFindIsLast | egs/basque_parliament_1_gttsehu/ASR/dev/local/prepare_manifest.py:54-55 | `rfind` returns a position holding the character, with none after it, or -1 |
| PosixPath.BasenameShape | egs/basque_parliament_1_gttsehu/ASR/dev/local/prepare_manifest.py:54 | the basename is the '/'-free suffix of the path, preceded by '/' unless it is the whole path |
| PosixPath.SplitextRootShape | egs/basque_parliament_1_gttsehu/ASR/dev/local/prepare_manifest.py:55 | the `splitext` root is a prefix; what it drops starts with a dot and holds no further dot or '/' |
| PosixPath.SplitextOfDottedName | egs/basque_parliament_1_gttsehu/ASR/dev/local/prepare_manifest.py:55 | `stem.ext` loses exactly its last extension when the stem is not all dots |
| PosixPath.SplitextOfHiddenName | egs/basque_parliament_1_gttsehu/ASR/dev/local/prepare_manifest.py:55 | a name whose last dot follows only dots (`.bashrc`) is kept whole |
| PosixPath.BasenameOfJoin | egs/basque_parliament_1_gttsehu/ASR/dev/local/update_audio_filepaths.py:23-26 | the basename of `join(a, b)` is `b` for a '/'-free `b`, whatever the directory |
| PosixPath.Basename | egs/basque_parliament_1_gttsehu/ASR/dev/local/prepare_manifest.py:20 | `os.path.basename`: never longer than the path; its shape is stated by `BasenameShape` |
| PosixPath.SplitextRoot | egs/basque_parliament_1_gttsehu/ASR/dev/local/prepare_manifest.py:21 | the root half of `os.path.splitext`: the path without its last extension, with leading dots of a name not counted as one; stated by `SplitextRootShape` and the three `SplitextOf…` lemmas |
| PosixPath.SplitextOfUndottedName | egs/basque_parliament_1_gttsehu/ASR/dev/local/prepare_manifest.py:55 | a file name without a dot is kept whole |
| PosixPath.Join | egs/basque_parliament_1_gttsehu/ASR/dev/local/update_audio_filepaths.py:26 | `os.path.join` of two components: an absolute second part replaces the first; an empty or '/'-terminated first part is followed directly by the second; otherwise one '/' is inserted between them |
| PosixPath.JoinShape | egs/basque_parliament_1_gttsehu/ASR/dev/local/update_audio_filepaths.py:26 | the joined path ends with the second part, and starts with the first unless the second is absolute |
| Normalizer.DecodeUtterance | egs/basque_parliament_1_gttsehu/ASR/dev/local/prepare_manifest.py:46-54 | a line is usable exactly when it is an object with all four keys and a string `audio_filepath`; the utterance carries those values unchanged |
| Normalizer.AudioId | egs/basque_parliament_1_gttsehu/ASR/dev/local/prepare_manifest.py:54-55 | the audio id of a path: its file name without the last extension (shape stated by `AudioIdShape`) |
| Normalizer.AudioIdShape | egs/basque_parliament_1_gttsehu/ASR/dev/local/prepare_manifest.py:54-55 | the audio id is a '/'-free prefix of the file name; anything dropped is one extension: a dot with no dot after it |
| Normalizer.Run | egs/basque_parliament_1_gttsehu/ASR/dev/local/prepare_manifest.py:45-70 | one supervision per utterance, in order; id and recording id are the audio id; start 0.0, channel 0, language `eu`; speaker, text and duration copied from the utterance |
| Normalizer.SupervisionOf | egs/basque_parliament_1_gttsehu/ASR/dev/local/prepare_manifest.py:58-67 | the supervision entry of an utterance (its fields are stated by `Run`) |
| Normalizer.RecordingOf | egs/basque_parliament_1_gttsehu/ASR/dev/local/prepare_manifest.py:83-96 | the recording entry of an utterance and its probed audio (its fields are stated by `RecordingProvenance`) |
| Normalizer.Step | egs/basque_parliament_1_gttsehu/ASR/dev/local/prepare_manifest.py:69-100 | one iteration of the line loop: the supervision first, then a probe only for an unseen id, and the id marked seen only after a successful probe; stated by `StepKeepsInvariant` and `StepMatchesReference` |
| Normalizer.StepKeepsInvariant | egs/basque_parliament_1_gttsehu/ASR/dev/local/prepare_manifest.py:73-100 | one iteration keeps the seen-set equal to the recorded ids, with those ids pairwise distinct |
| Normalizer.RunInvariants | egs/basque_parliament_1_gttsehu/ASR/dev/local/prepare_manifest.py:73-100 | after the loop the seen-set is exactly the set of recorded ids, and recording ids are pairwise distinct |
| Normalizer.StepMatchesReference | egs/basque_parliament_1_gttsehu/ASR/dev/local/prepare_manifest.py:73-100 | one iteration probes unless the id was already probed successfully, and adds a recording exactly when it probes successfully |
| Normalizer.RunMatchesReference | egs/basque_parliament_1_gttsehu/ASR/dev/local/prepare_manifest.py:73-100 | the loop with its seen-set agrees with a seen-set-free reference: the same seen ids, the same probe calls, the same recordings |
| Normalizer.FailedProbeIsRetried | egs/basque_parliament_1_gttsehu/ASR/dev/local/prepare_manifest.py:74-100 | when no earlier utterance of an id probed successfully, the id is not seen, this utterance is probed, and a successful probe adds its recording |
| Normalizer.RecordingProvenance | egs/basque_parliament_1_gttsehu/ASR/dev/local/prepare_manifest.py:83-96 | every recording comes from some utterance: the first of its id with a readable file; source = that path, channels [0], channel ids [0], rate and samples from the probe, duration copied |
| Normalizer.ExpectedProvenance | egs/basque_parliament_1_gttsehu/ASR/dev/local/prepare_manifest.py:83-96 | the same provenance for the reference recordings |
| Normalizer.RecordingHasSupervision | egs/basque_parliament_1_gttsehu/ASR/dev/local/prepare_manifest.py:70-100 | every recording id is the recording id of some supervision of the same file |
| Normalizer.OrphanSupervision | egs/basque_parliament_1_gttsehu/ASR/dev/local/prepare_manifest.py:70-81 | when no utterance of an audio id can be read, each of them still leaves a supervision naming that id, and no recording carries it |
| Normalizer.RecordingCount | egs/basque_parliament_1_gttsehu/ASR/dev/local/prepare_manifest.py:45-100 | one supervision per utterance; one recording per distinct audio id that some utterance probes successfully |
| Normalizer.ProcessLines | egs/basque_parliament_1_gttsehu/ASR/dev/local/prepare_manifest.py:45-51 | a file's run completes exactly when every line yields a supervision; otherwise it stops at a line that raises |
| Normalizer.ProcessLinesSupervisions | egs/basque_parliament_1_gttsehu/ASR/dev/local/prepare_manifest.py:45-70 | supervision i of a file is the one built from line i, and that line decodes |
| Normalizer.SupervisionsPath | egs/basque_parliament_1_gttsehu/ASR/dev/local/prepare_manifest.py:24-26 | the supervisions manifest of an input file, in the manifests directory (the names are stated by `OutputNames`) |
| Normalizer.RecordingsPath | egs/basque_parliament_1_gttsehu/ASR/dev/local/prepare_manifest.py:27-29 | the recordings manifest of an input file, in the manifests directory (the names are stated by `OutputNames`) |
| Normalizer.OutputNames | egs/basque_parliament_1_gttsehu/ASR/dev/local/prepare_manifest.py:20-29 | for `basqueP<rest>.json` the outputs are `basqueP_supervisions<rest>.jsonl` and `basqueP_recordings<rest>.jsonl` in the manifests directory |
| Normalizer.ProcessFiles | egs/basque_parliament_1_gttsehu/ASR/dev/local/prepare_manifest.py:18-45 | the loop over input files yields at most one run per file; `ProcessFilesShape` states which runs and in what state |
| Normalizer.RunFilesAligned | egs/basque_parliament_1_gttsehu/ASR/dev/local/prepare_manifest.py:18-39 | run j is file j handled on its own |
| Normalizer.RunFilesStops | egs/basque_parliament_1_gttsehu/ASR/dev/local/prepare_manifest.py:18-45 | every file run but the last completes; the loop stops early only after a run that aborts |
| Normalizer.ProcessFilesShape | egs/basque_parliament_1_gttsehu/ASR/dev/local/prepare_manifest.py:18-39 | file j is processed from a fresh seen-set; the loop stops at the first aborted file |
| Normalizer.SeenSetIsPerFile | egs/basque_parliament_1_gttsehu/ASR/dev/local/prepare_manifest.py:36 | file j gets a recording for an id exactly when one of its own utterances has that id and a readable file, whatever earlier files held |
| Exporter.DecodeItem | egs/basque_parliament_1_gttsehu/ASR/dev/local/data_prep.py:14-15 | an item is usable exactly when it is an object with `client_id`, `text` and a string `audio_filepath`; the values are kept |
| Exporter.FileStem | egs/basque_parliament_1_gttsehu/ASR/dev/local/data_prep.py:14 | `basename(path).split('.')[0]`; stated by `FileStemShape` |
| Exporter.UttId | egs/basque_parliament_1_gttsehu/ASR/dev/local/data_prep.py:14 | the utterance id: client id, `_`, file stem; stated by `UttIdOfPlainName` and `TablesAligned` |
| Exporter.FileStemShape | egs/basque_parliament_1_gttsehu/ASR/dev/local/data_prep.py:14 | the stem is the longest dot-free prefix of the file name: everything from the first dot on is dropped |
| Exporter.UttIdOfPlainName | egs/basque_parliament_1_gttsehu/ASR/dev/local/data_prep.py:14 | for `dir/stem.ext` with a dot-free stem the utterance id is `client_id_stem` |
| Exporter.TextLine | egs/basque_parliament_1_gttsehu/ASR/dev/local/data_prep.py:15 | the `text` line of an item (its shape is stated by `TablesAligned`) |
| Exporter.WavScpLine | egs/basque_parliament_1_gttsehu/ASR/dev/local/data_prep.py:16 | the `wav.scp` line of an item (its shape is stated by `TablesAligned`) |
| Exporter.Utt2SpkLine | egs/basque_parliament_1_gttsehu/ASR/dev/local/data_prep.py:17 | the `utt2spk` line of an item (its shape is stated by `TablesAligned`) |
| Exporter.ExportItems | egs/basque_parliament_1_gttsehu/ASR/dev/local/data_prep.py:13-17 | the three tables have one entry (one write) per item, in item order, each entry built from that item |
| Exporter.TablesAligned | egs/basque_parliament_1_gttsehu/ASR/dev/local/data_prep.py:14-17 | entry i of all three tables starts with the same utterance id and a space, followed by the text, the unmodified path and the client id |
| Exporter.ExportLines | egs/basque_parliament_1_gttsehu/ASR/dev/local/data_prep.py:11-17 | the tables have equal length; it equals the line count exactly when no line raises; otherwise the line after the last written one raises; entry i of each table is built from item i |
| Exporter.FileTextNewlines | egs/basque_parliament_1_gttsehu/ASR/dev/local/data_prep.py:15-17 | a file whose entries each end in a newline has at least one newline per entry, and exactly one per entry exactly when no entry holds a second newline |
| Exporter.EntryIsOneLine | egs/basque_parliament_1_gttsehu/ASR/dev/local/data_prep.py:15-17 | an entry `<id> <value>\n` is one physical line exactly when neither the id nor the value holds a newline |
| Exporter.UttIdNewlines | egs/basque_parliament_1_gttsehu/ASR/dev/local/data_prep.py:14 | the utterance id is newline-free when the client id and the path are |
| Exporter.TextTableLines | egs/basque_parliament_1_gttsehu/ASR/dev/local/data_prep.py:15 | the `text` file has exactly one physical line per item exactly when no utterance id and no transcript holds a newline, and never fewer |
| Exporter.WavScpTableLines | egs/basque_parliament_1_gttsehu/ASR/dev/local/data_prep.py:16 | the `wav.scp` file has exactly one physical line per item exactly when no utterance id and no path holds a newline, and never fewer |
| Exporter.Utt2SpkTableLines | egs/basque_parliament_1_gttsehu/ASR/dev/local/data_prep.py:17 | the `utt2spk` file has exactly one physical line per item exactly when no utterance id and no client id holds a newline, and never fewer |
| Exporter.NewlineFreeTables | egs/basque_parliament_1_gttsehu/ASR/dev/local/data_prep.py:13-17 | when no path, transcript or client id holds a newline, each table file has exactly one physical line per item, so physical line i of the three files belongs to item i |
| Exporter.LexiconEntry | egs/basque_parliament_1_gttsehu/ASR/dev/local/data_prep.py:60 | the entry of one symbol: the symbol, a space, the symbol |
| Exporter.Lexicon | egs/basque_parliament_1_gttsehu/ASR/dev/local/data_prep.py:57-60 | the lexicon of a vocabulary (stated by the four lemmas below) |
| Exporter.LexiconAppend | egs/basque_parliament_1_gttsehu/ASR/dev/local/data_prep.py:57-60 | lexicon entries keep the vocabulary order |
| Exporter.LexiconLength | egs/basque_parliament_1_gttsehu/ASR/dev/local/data_prep.py:57-60 | one entry per non-space symbol |
| Exporter.LexiconEntries | egs/basque_parliament_1_gttsehu/ASR/dev/local/data_prep.py:57-60 | the entries are exactly `c c` for the non-space symbols c |
| Exporter.NoSpaceEntry | egs/basque_parliament_1_gttsehu/ASR/dev/local/data_prep.py:59 | no entry is written for the space |
| Exporter.FixedLexiconSize | egs/basque_parliament_1_gttsehu/ASR/dev/local/data_prep.py:54-60 | the fixed 34-symbol vocabulary yields 33 entries |
| Transcripts.ParseRecordingId | egs/basque_parliament_1_gttsehu/ASR/dev/local/generate_transcripts.py:34-42 | the session key and timestamps of a recording id, or none for fewer than four fields; stated by `RecordingIdRoundTrip` and `ParseOfFields` |
| Transcripts.RecordingIdRoundTrip | egs/basque_parliament_1_gttsehu/ASR/dev/local/generate_transcripts.py:34-42 | an id parses exactly when it has at least three underscores; session key + `_` + timestamps gives the id back; the key has exactly two underscores |
| Transcripts.ParseOfFields | egs/basque_parliament_1_gttsehu/ASR/dev/local/generate_transcripts.py:34-42 | `S_D_Q_T1_..._Tn` from underscore-free fields parses to key `S_D_Q` and timestamps `T1_..._Tn` |
| Transcripts.TranscriptWrite | egs/basque_parliament_1_gttsehu/ASR/dev/local/generate_transcripts.py:26-51 | the append one line makes inside the `try`, or none when the body continues or raises first, a NUL in the paths included; its cases are stated by `TranscriptWriteCases` |
| Transcripts.MalformedIdSkipped | egs/basque_parliament_1_gttsehu/ASR/dev/local/generate_transcripts.py:34-37 | a string recording id with fewer than four fields writes nothing |
| Transcripts.TranscriptWriteCases | egs/basque_parliament_1_gttsehu/ASR/dev/local/generate_transcripts.py:26-59 | a line writes exactly when it is an object with a string recording id of at least three underscores and a string or absent speaker, and neither the directory of line 45 nor the file of line 49 holds a NUL; the append goes to the session file of the id's key, with the id's third underscore turned into `-` |
| Transcripts.DefaultsApplied | egs/basque_parliament_1_gttsehu/ASR/dev/local/generate_transcripts.py:30-31 | for NUL-free input, a missing speaker becomes `unknown_speaker` and a missing text the empty string |
| Transcripts.FullLine | egs/basque_parliament_1_gttsehu/ASR/dev/local/generate_transcripts.py:29-51 | a line with all three fields as NUL-free strings writes with its own speaker and text |
| Transcripts.Creatable | egs/basque_parliament_1_gttsehu/ASR/dev/local/generate_transcripts.py:45-50 | the condition under which `os.makedirs` and `open` do not reject the paths for a NUL; stated by `NulNotCreatable` and `NulFreeCreatable` |
| Transcripts.NulNotCreatable | egs/basque_parliament_1_gttsehu/ASR/dev/local/generate_transcripts.py:45-50 | a NUL in the speaker or the session key reaches the path handed to `open` |
| Transcripts.NulFreeCreatable | egs/basque_parliament_1_gttsehu/ASR/dev/local/generate_transcripts.py:45-50 | NUL-free components give NUL-free directory and file paths |
| Transcripts.NulSpeakerSkipped | egs/basque_parliament_1_gttsehu/ASR/dev/local/generate_transcripts.py:46-58 | a line whose speaker holds a NUL writes nothing, whatever its recording id and text |
| Transcripts.SessionDir | egs/basque_parliament_1_gttsehu/ASR/dev/local/generate_transcripts.py:45 | `join(out, subdir, speaker, key)`; stated by `SessionDirShape` |
| Transcripts.TranscriptPath | egs/basque_parliament_1_gttsehu/ASR/dev/local/generate_transcripts.py:49 | the `speaker-key.trans.txt` file of that directory; stated by `TranscriptPathShape` |
| Transcripts.SessionDirShape | egs/basque_parliament_1_gttsehu/ASR/dev/local/generate_transcripts.py:45 | with plain components the directory is `out/subdir/speaker/key` |
| Transcripts.TranscriptPathShape | egs/basque_parliament_1_gttsehu/ASR/dev/local/generate_transcripts.py:49 | the transcript file `speaker-key.trans.txt` sits directly in that directory |
| Transcripts.UtteranceNewlines | egs/basque_parliament_1_gttsehu/ASR/dev/local/generate_transcripts.py:51 | an entry holds its own terminating newline plus those of the speaker, session key, timestamps and text |
| Transcripts.UtteranceIsOneLine | egs/basque_parliament_1_gttsehu/ASR/dev/local/generate_transcripts.py:51 | every entry ends at least one physical line, and is exactly one line iff none of speaker, session key, timestamps and text holds a newline |
| Transcripts.WellFormedLine | egs/basque_parliament_1_gttsehu/ASR/dev/local/generate_transcripts.py:39-51 | a well-formed, NUL-free line appends `speaker-S_D_Q-T1_..._Tn text` to `out/split/speaker/S_D_Q/speaker-S_D_Q.trans.txt` |
| Transcripts.Append | egs/basque_parliament_1_gttsehu/ASR/dev/local/generate_transcripts.py:50-51 | an append adds the entry at the end of its file and touches no other file |
| Transcripts.ProcessLines | egs/basque_parliament_1_gttsehu/ASR/dev/local/generate_transcripts.py:24-59 | the loop over one shard's lines, each handled on its own; its effect on each file is stated by `ProcessLinesContents` |
| Transcripts.ProcessLinesContents | egs/basque_parliament_1_gttsehu/ASR/dev/local/generate_transcripts.py:24-59 | after a file, every transcript keeps its old entries as a prefix and gains the entries aimed at it (one write each), in input order |
| Transcripts.ProcessLinesCompose | egs/basque_parliament_1_gttsehu/ASR/dev/local/generate_transcripts.py:24-59 | handling two stretches of lines one after the other is handling them together |
| Transcripts.SkippedLineInvisible | egs/basque_parliament_1_gttsehu/ASR/dev/local/generate_transcripts.py:26-59 | a line that raises or is malformed only costs itself: the rest is handled as if it were absent |
| Transcripts.RerunDuplicates | egs/basque_parliament_1_gttsehu/ASR/dev/local/generate_transcripts.py:50-51 | a second run over the same lines appends every line again: the builder is not idempotent |
| Transcripts.SubdirName | egs/basque_parliament_1_gttsehu/ASR/dev/local/generate_transcripts.py:20 | the subdirectory of a shard file name, both literals removed; stated by `SubdirNameOfShard` |
| Transcripts.SubdirNameOfShard | egs/basque_parliament_1_gttsehu/ASR/dev/local/generate_transcripts.py:19-20 | `basqueP_supervisions_<part>.jsonl` is filed under `<part>` |
| Transcripts.ProcessShards | egs/basque_parliament_1_gttsehu/ASR/dev/local/generate_transcripts.py:18-59 | the loop over shards never removes a file that exists before it |
| Transcripts.ProcessShardsContents | egs/basque_parliament_1_gttsehu/ASR/dev/local/generate_transcripts.py:18-51 | after all shards every transcript holds its old entries, then the entries each shard aims at it (one write each), in shard order and line order |
| Rewriter.NewPath | egs/basque_parliament_1_gttsehu/ASR/dev/local/update_audio_filepaths.py:22-26 | the new audio path of an old one (stated by `NewPathInDir` and `NewPathKeepsName`) |
| Rewriter.NewPathInDir | egs/basque_parliament_1_gttsehu/ASR/dev/local/update_audio_filepaths.py:22-26 | into a directory not ending in '/' the new path is that directory, a '/', and the old file name |
| Rewriter.NewPathKeepsName | egs/basque_parliament_1_gttsehu/ASR/dev/local/update_audio_filepaths.py:22-26 | the new path has the same basename as the old one |
| Rewriter.NewPathOverwrite | egs/basque_parliament_1_gttsehu/ASR/dev/local/update_audio_filepaths.py:22-26 | moving into `d1` and then `d2` is moving into `d2` |
| Rewriter.RewriteRecord | egs/basque_parliament_1_gttsehu/ASR/dev/local/update_audio_filepaths.py:22-29 | a record is rewritten exactly when it has a string `audio_filepath`; that path becomes `join(audioDir, basename(old))`; the keys stay the same and other values are unchanged |
| Rewriter.RewriteLine | egs/basque_parliament_1_gttsehu/ASR/dev/local/update_audio_filepaths.py:19-29 | a line is rewritten exactly when it decodes to an object with a string `audio_filepath`, and then becomes that object with the record rewritten |
| Rewriter.RewriteLines | egs/basque_parliament_1_gttsehu/ASR/dev/local/update_audio_filepaths.py:16-32 | a file is rewritten exactly when all its lines are; the result has the same number of records, in order, each the rewrite of its original |
| Rewriter.RewriteLinesOverwrite | egs/basque_parliament_1_gttsehu/ASR/dev/local/update_audio_filepaths.py:16-32 | rewriting a file with `d1` and then `d2` equals rewriting it with `d2` |
| Rewriter.RewriteLinesIdempotent | egs/basque_parliament_1_gttsehu/ASR/dev/local/update_audio_filepaths.py:23-26 | rewriting a file twice with one directory is rewriting it once |
| Rewriter.FirstFailure | egs/basque_parliament_1_gttsehu/ASR/dev/local/update_audio_filepaths.py:14-19 | the position of the first manifest with a line that cannot be rewritten; every earlier one can be |
| Rewriter.RewriteAll | egs/basque_parliament_1_gttsehu/ASR/dev/local/update_audio_filepaths.py:14-36 | every manifest keeps its path and position |
| Rewriter.RewriteAllStopsAtFailure | egs/basque_parliament_1_gttsehu/ASR/dev/local/update_audio_filepaths.py:14-36 | manifests before the first failing one are overwritten, every record in them with its path moved to `join(audioDir, basename(old))` and its other keys kept; that one and all later ones are left as they were; the run aborts exactly when one fails |
| Rewriter.RewriteAllOverwrite | egs/basque_parliament_1_gttsehu/ASR/dev/local/update_audio_filepaths.py:14-36 | running with `d1` and then with `d2` leaves the manifests as running with `d2` alone |
| Rewriter.RewriteAllIdempotent | egs/basque_parliament_1_gttsehu/ASR/dev/local/update_audio_filepaths.py:14-36 | running the rewriter twice with one directory is running it once |
| Pipeline.SubdirOfShardPath | egs/basque_parliament_1_gttsehu/ASR/dev/local/generate_transcripts.py:19-20 | a shard `basqueP_supervisions_<part>.jsonl` in any directory is filed under `<part>` |
| Pipeline.ShardSubdirOfInput | egs/basque_parliament_1_gttsehu/ASR/dev/local/prepare_manifest.py:24-26 | the supervisions manifest written for `basqueP_<part>.json` is filed by the transcript builder under `<part>` |
| Pipeline.StemsDisagreeOnTwoDots | egs/basque_parliament_1_gttsehu/ASR/dev/local/data_prep.py:14 | for `a.b.wav` the exporter's utterance name keeps `a` while the normaliser's audio id keeps `a.b` |

## Left out

- JSON parsing and serialisation (`json.loads`, `json.dumps`, `jsonlines`): a line is modelled as already decoded. A non-object or unparsable line is `Undecodable`. Output records are datatypes, not their JSON text. Key order, `ensure_ascii` and number formatting are not modelled.
- `str()` of non-string JSON values: this is what an f-string writes for numbers, booleans, null and containers. It is kept as an opaque rendered string.
- The audio probe (`soundfile.SoundFile`): this is an external library. It is a function parameter returning the sample rate and sample count, or nothing when reading fails.
- Durations: they are copied and never computed, so they are opaque values.
- `glob`, `os.listdir` and the three split-name patterns of `generate_transcripts.py`: the input files arrive as a sequence, in listing order, which the model does not fix.
- `os.path.abspath` of the two directories in `update_audio_filepaths.py`: it depends on the working directory. The audio directory is taken as given.
- `os.makedirs`, opening and closing files, and filesystem or permission errors: these are environment effects. An output file opened with `'w'` is modelled by its final contents. One failure that the input alone causes is modelled: a NUL in the directory or file path makes `os.makedirs` or `open` raise, and the line is skipped (`Transcripts.Creatable`). Other failures the input can cause are listed on the `Transcripts.TranscriptWrite` line below.
- Logging, `print`, `tqdm` and `argparse`, and the fixed paths and calls in the scripts' `main` blocks.
- `compute_fbank_musan.py` and `train_bpe_model.py`: they wrap feature extraction and SentencePiece training and have no logic of their own here.
- Extension-based subfolder routing of recording sources and gzip shard maintenance: no modelled script does either.
- Crash safety of the in-place overwrite in `update_audio_filepaths.py`: a partial write is a filesystem effect.
- Text encoding and decoding: the model starts from decoded lines and writes strings, and models no encoding in either direction. So the following are not modelled:
  - `generate_transcripts.py:24-25` opens each shard with the locale's default encoding and decodes its lines in the `for` header, outside the `try`. A line that is not valid text in that encoding ends the whole run.
  - `prepare_manifest.py:41` decodes the whole input to count its lines before the loop starts. An invalid UTF-8 byte anywhere in the input therefore leaves both outputs, already opened with `'w'` at lines 32-33, empty.
  - `data_prep.py:11` and `generate_transcripts.py:50` write with the locale's encoding. In a non-UTF-8 locale, a character it cannot encode raises at that write.
- Lone surrogates: Python strings can hold unpaired surrogate code points (JSON `"\ud800"`), which Dafny `char`s cannot. Strings are modelled as sequences of `char`.
- Transcripts.TranscriptWrite: apart from NUL, assumes that the `os.makedirs` at `generate_transcripts.py:46` and the `open(..., 'a')` at line 50 succeed. The input can make them fail in two more ways. A '/' in the speaker or the session key puts the file name of line 49 in a directory that line 46 did not create, so the open raises unless that directory already exists. A path component longer than the filesystem's name limit (commonly 255 bytes) raises at line 46 or 50. Line 58 then catches the error and skips the line, while the model appends. Whether either happens depends on the input together with the directories already present and the filesystem's limits, and the model represents neither. The same assumption carries over to `TranscriptWriteCases`, `DefaultsApplied`, `FullLine` and `WellFormedLine`.
- Transcripts.Append: files are keyed by path string, not by physical file. So paths that name one file in different spellings (speakers `./spk` and `spk`, or a repeated '/') are different keys in the model. A file's sequence holds entries, one per write, not physical lines; `UtteranceIsOneLine` relates the two.
- Exporter.ExportItems: a table entry is one write, not one physical line. A newline inside a transcript, path or client id makes that write span several lines; `TextTableLines`, `WavScpTableLines`, `Utt2SpkTableLines` and `NewlineFreeTables` state exactly when entries and physical lines agree.
- Text.ReplaceAll: requires a non-empty pattern. Every call in the scripts passes a non-empty literal, and Python's behaviour for an empty pattern (inserting the replacement between characters) is not modelled.
- Transcripts.SpeakerOf: requires that a present speaker is a string. A non-string speaker makes `os.path.join` raise, and `TranscriptWrite` handles that case before calling it.

=== FILE: exporter.dfy ===
/** The Kaldi-style corpus exporter of `data_prep.py`: one utterance manifest becomes
    three line-aligned tables (`text`, `wav.scp`, `utt2spk`), and a fixed character
    lexicon is written independently of any input. */
module Exporter {
  import opened Text
  import opened PosixPath
  import opened Json

  /** The three keys `process_json` reads from an item. */
  datatype Item = Item(audioFilepath: string, text: Value, clientId: Value)

  /** The lookups (and the `basename` call) that precede any write for an item; `None`
      where one of them raises, which ends the run. */
  function DecodeItem(line: Line): (r: Option<Item>)
    ensures r.Some? <==>
              && line.Object?
              && "client_id" in line.fields && "text" in line.fields
              && GetStr(line, "audio_filepath").Some?
    ensures r.Some? ==>
              && Str(r.value.audioFilepath) == line.fields["audio_filepath"]
              && r.value.text == line.fields["text"]
              && r.value.clientId == line.fields["client_id"]
  {
    match (Get(line, "client_id"), GetStr(line, "audio_filepath"), Get(line, "text"))
    case (Some(c), Some(p), Some(t)) => Some(Item(p, t, c))
    case _ => None
  }

  /** The part of the file name before its FIRST dot (`split('.')[0]`). */
  function FileStem(path: string): string
  {
    Split(Basename(path), '.')[0]
  }

  /** The utterance id: the client id, an underscore, and the file stem. */
  function UttId(item: Item): string
  {
    Render(item.clientId) + "_" + FileStem(item.audioFilepath)
  }

  /** The stem is the longest dot-free prefix of the file name: everything from the
      first dot on is dropped, so `a.b.wav` gives `a`, not `a.b`. */
  lemma FileStemShape(path: string)
    ensures FileStem(path) <= Basename(path)
    ensures '.' !in FileStem(path) && '/' !in FileStem(path)
    ensures |FileStem(path)| < |Basename(path)| ==> Basename(path)[|FileStem(path)|] == '.'
  {
    var name := Basename(path);
    var stem := FileStem(path);
    BasenameShape(path);
    FirstPieceIsLongestFreePrefix(name, '.');
    forall j | 0 <= j < |stem|
      ensures stem[j] != '/'
    {
      assert stem[j] == name[j];
    }
  }

  /** For a path `dir/stem.ext` with a dot-free stem, the utterance id is the client
      id, an underscore and the stem. */
  lemma UttIdOfPlainName(item: Item, dir: string, stem: string, ext: string)
    requires item.audioFilepath == dir + "/" + stem + "." + ext
    requires '/' !in stem && '/' !in ext && '.' !in stem
    ensures UttId(item) == Render(item.clientId) + "_" + stem
  {
    var name := stem + "." + ext;
    assert '/' !in name;
    assert item.audioFilepath == (dir + "/") + name;
    BasenameAfterSlash(dir + "/", name);
    FirstPieceBeforeSeparator(stem, '.', ext);
  }

  /** The text/wav.scp/utt2spk lines written for one item. */
  function TextLine(item: Item): string
  {
    UttId(item) + " " + Render(item.text) + "\n"
  }

  function WavScpLine(item: Item): string
  {
    UttId(item) + " " + item.audioFilepath + "\n"
  }

  function Utt2SpkLine(item: Item): string
  {
    UttId(item) + " " + Render(item.clientId) + "\n"
  }

  /** The contents of the three tables. */
  datatype Tables = Tables(text: seq<string>, wavScp: seq<string>, utt2spk: seq<string>)

  /** The loop over the items: one line per item appended to each table. */
  function ExportItems(items: seq<Item>): (t: Tables)
    ensures |t.text| == |items| && |t.wavScp| == |items| && |t.utt2spk| == |items|
    ensures forall i :: 0 <= i < |items| ==>
              && t.text[i] == TextLine(items[i])
              && t.wavScp[i] == WavScpLine(items[i])
              && t.utt2spk[i] == Utt2SpkLine(items[i])
    decreases |items|
  {
    if |items| == 0 then Tables([], [], [])
    else
      var n := |items| - 1;
      var t := ExportItems(items[..n]);
      assert forall i :: 0 <= i < n ==> items[..n][i] == items[i];
      Tables(t.text + [TextLine(items[n])], t.wavScp + [WavScpLine(items[n])], t.utt2spk + [Utt2SpkLine(items[n])])
  }

  /** Line i of the three tables starts with the same utterance id and a space, and
      carries the transcript, the unmodified audio path and the client id. */
  lemma TablesAligned(items: seq<Item>, i: int)
    requires 0 <= i < |items|
    ensures var t := ExportItems(items);
            var key := UttId(items[i]) + " ";
            && key <= t.text[i] && key <= t.wavScp[i] && key <= t.utt2spk[i]
            && t.text[i][|key|..] == Render(items[i].text) + "\n"
            && t.wavScp[i][|key|..] == items[i].audioFilepath + "\n"
            && t.utt2spk[i][|key|..] == Render(items[i].clientId) + "\n"
  {
    var t := ExportItems(items);
    var item := items[i];
    var key := UttId(item) + " ";
    assert t.text[i] == TextLine(item) && t.wavScp[i] == WavScpLine(item) && t.utt2spk[i] == Utt2SpkLine(item);
    KeyedLine(UttId(item), Render(item.text));
    KeyedLine(UttId(item), item.audioFilepath);
    KeyedLine(UttId(item), Render(item.clientId));
  }

  /** A table line `<id> <value>\n` starts with the id and a space, and continues
      with the value. */
  lemma KeyedLine(id: string, value: string)
    ensures var line := id + " " + value + "\n";
            id + " " <= line && line[|id + " "|..] == value + "\n"
  {
    var line := id + " " + value + "\n";
    assert line == (id + " ") + (value + "\n");
  }

  /** The text of a table file: its entries written one after another. */
  function FileText(entries: seq<string>): string
    decreases |entries|
  {
    if |entries| == 0 then "" else FileText(entries[..|entries| - 1]) + entries[|entries| - 1]
  }

  /** A file whose entries each hold a newline has at least one newline per entry,
      and exactly one per entry when no entry holds a second one. */
  lemma {:induction false} FileTextNewlines(entries: seq<string>)
    requires forall i :: 0 <= i < |entries| ==> Count(entries[i], '\n') >= 1
    ensures Count(FileText(entries), '\n') >= |entries|
    ensures Count(FileText(entries), '\n') == |entries| <==>
              forall i :: 0 <= i < |entries| ==> Count(entries[i], '\n') == 1
    decreases |entries|
  {
    if |entries| > 0 {
      var n := |entries| - 1;
      var init := entries[..n];
      assert forall i :: 0 <= i < n ==> init[i] == entries[i];
      FileTextNewlines(init);
      CountAppend(FileText(init), entries[n], '\n');
    }
  }

  /** The newlines of an entry `<id> <value>\n`: its final one, and those of the id
      and the value. */
  lemma EntryNewlines(id: string, value: string)
    ensures Count(id + " " + value + "\n", '\n') == 1 + Count(id, '\n') + Count(value, '\n')
  {
    CountAppend(id + " " + value, "\n", '\n');
    CountAppend(id + " ", value, '\n');
    CountAppend(id, " ", '\n');
    assert Count(" ", '\n') == 0 by { CountAbsent(" ", '\n'); }
    assert Count("\n", '\n') == 1 by { assert "\n"[1..] == ""; }
  }

  /** An entry is one physical line exactly when neither its id nor its value holds a
      newline. */
  lemma EntryIsOneLine(id: string, value: string)
    ensures Count(id + " " + value + "\n", '\n') >= 1
    ensures Count(id + " " + value + "\n", '\n') == 1 <==> '\n' !in id && '\n' !in value
  {
    EntryNewlines(id, value);
    CountZero(id, '\n');
    CountZero(value, '\n');
  }

  /** The utterance id holds a newline only when the client id or the path does. */
  lemma UttIdNewlines(item: Item)
    requires '\n' !in Render(item.clientId) && '\n' !in item.audioFilepath
    ensures '\n' !in UttId(item)
  {
    var path := item.audioFilepath;
    var name := Basename(path);
    var stem := FileStem(path);
    FileStemShape(path);
    BasenameShape(path);
    forall j | 0 <= j < |stem|
      ensures stem[j] != '\n'
    {
      assert stem[j] == name[j] == path[|path| - |name| + j];
    }
  }

  /** The `text` file has exactly one physical line per item exactly when no id and
      no transcript holds a newline. A newline inside one adds physical lines, which
      shifts every later line of the file against the other two tables. */
  lemma {:induction false} TextTableLines(items: seq<Item>)
    ensures var t := ExportItems(items);
            && Count(FileText(t.text), '\n') >= |items|
            && (Count(FileText(t.text), '\n') == |items| <==>
                  forall i :: 0 <= i < |items| ==> '\n' !in UttId(items[i]) && '\n' !in Render(items[i].text))
  {
    TableFileLines(ExportItems(items).text, items, (item: Item) => Render(item.text));
  }

  /** The same for `wav.scp`, whose values are the audio paths. */
  lemma {:induction false} WavScpTableLines(items: seq<Item>)
    ensures var t := ExportItems(items);
            && Count(FileText(t.wavScp), '\n') >= |items|
            && (Count(FileText(t.wavScp), '\n') == |items| <==>
                  forall i :: 0 <= i < |items| ==> '\n' !in UttId(items[i]) && '\n' !in items[i].audioFilepath)
  {
    TableFileLines(ExportItems(items).wavScp, items, (item: Item) => item.audioFilepath);
  }

  /** The same for `utt2spk`, whose values are the client ids. */
  lemma {:induction false} Utt2SpkTableLines(items: seq<Item>)
    ensures var t := ExportItems(items);
            && Count(FileText(t.utt2spk), '\n') >= |items|
            && (Count(FileText(t.utt2spk), '\n') == |items| <==>
                  forall i :: 0 <= i < |items| ==> '\n' !in UttId(items[i]) && '\n' !in Render(items[i].clientId))
  {
    TableFileLines(ExportItems(items).utt2spk, items, (item: Item) => Render(item.clientId));
  }

  /** One table file whose entry i is `<id of item i> <value of item i>\n`. */
  lemma TableFileLines(entries: seq<string>, items: seq<Item>, value: Item -> string)
    requires |entries| == |items|
    requires forall i :: 0 <= i < |items| ==> entries[i] == UttId(items[i]) + " " + value(items[i]) + "\n"
    ensures Count(FileText(entries), '\n') >= |items|
    ensures Count(FileText(entries), '\n') == |items| <==>
              forall i :: 0 <= i < |items| ==> '\n' !in UttId(items[i]) && '\n' !in value(items[i])
  {
    forall i | 0 <= i < |items|
      ensures Count(entries[i], '\n') >= 1
      ensures Count(entries[i], '\n') == 1 <==> '\n' !in UttId(items[i]) && '\n' !in value(items[i])
    {
      EntryIsOneLine(UttId(items[i]), value(items[i]));
    }
    FileTextNewlines(entries);
  }

  /** When no path, text or client id holds a newline, each table file has exactly
      one physical line per item, so line i of the three files belongs to item i. */
  lemma {:induction false} NewlineFreeTables(items: seq<Item>)
    requires forall i :: 0 <= i < |items| ==>
               '\n' !in items[i].audioFilepath && '\n' !in Render(items[i].text) && '\n' !in Render(items[i].clientId)
    ensures var t := ExportItems(items);
            && Count(FileText(t.text), '\n') == |items|
            && Count(FileText(t.wavScp), '\n') == |items|
            && Count(FileText(t.utt2spk), '\n') == |items|
  {
    forall i | 0 <= i < |items|
      ensures '\n' !in UttId(items[i])
    {
      UttIdNewlines(items[i]);
    }
    TextTableLines(items);
    WavScpTableLines(items);
    Utt2SpkTableLines(items);
  }

  /** What `process_json` leaves behind: the tables, and whether an item raised. */
  datatype Export = Export(tables: Tables, aborted: bool)

  /** The whole run over one manifest: items are handled until the first line that
      raises; the tables then hold the lines of the items before it. */
  function ExportLines(lines: seq<Line>): (e: Export)
    ensures |e.tables.text| == |e.tables.wavScp| == |e.tables.utt2spk| <= |lines|
    ensures !e.aborted <==> |e.tables.text| == |lines|
    ensures e.aborted ==> DecodeItem(lines[|e.tables.text|]).None?
    ensures forall i :: 0 <= i < |e.tables.text| ==>
              && DecodeItem(lines[i]).Some?
              && e.tables.text[i] == TextLine(DecodeItem(lines[i]).value)
              && e.tables.wavScp[i] == WavScpLine(DecodeItem(lines[i]).value)
              && e.tables.utt2spk[i] == Utt2SpkLine(DecodeItem(lines[i]).value)
  {
    var d := DecodeUntilFailure(lines, DecodeItem);
    Export(ExportItems(d.items), d.aborted)
  }

  /** The letters of the fixed alphabet of `main`: Latin a to z and the Basque and
      Spanish accented vowels, ñ and ü. */
  const Letters: string := "abcdefghijklmnopqrstuvwxyzáéíñóúü"

  /** The fixed alphabet of `main`, one symbol per character, space first. */
  const Vocab: seq<char> := [' '] + Letters

  /** The lexicon entry of a symbol: the symbol as word and as its own spelling. */
  function LexiconEntry(c: char): string
  {
    [c] + " " + [c] + "\n"
  }

  /** One entry per symbol of `vocab` other than space, in vocabulary order. */
  function Lexicon(vocab: seq<char>): seq<string>
    decreases |vocab|
  {
    if |vocab| == 0 then []
    else (if vocab[0] != ' ' then [LexiconEntry(vocab[0])] else []) + Lexicon(vocab[1..])
  }

  /** The lexicon of a concatenation is the concatenation of the lexicons: entries
      keep the vocabulary order. */
  lemma {:induction false} LexiconAppend(a: seq<char>, b: seq<char>)
    ensures Lexicon(a + b) == Lexicon(a) + Lexicon(b)
    decreases |a|
  {
    if |a| == 0 {
      assert a + b == b;
    } else {
      var head := if a[0] != ' ' then [LexiconEntry(a[0])] else [];
      assert (a + b)[0] == a[0];
      assert (a + b)[1..] == a[1..] + b;
      LexiconAppend(a[1..], b);
      assert Lexicon(a + b) == head + (Lexicon(a[1..]) + Lexicon(b));
      assert Lexicon(a) == head + Lexicon(a[1..]);
    }
  }

  /** There are as many entries as the vocabulary has non-space symbols. */
  lemma {:induction false} LexiconLength(vocab: seq<char>)
    ensures |Lexicon(vocab)| == |vocab| - Count(vocab, ' ')
    decreases |vocab|
  {
    if |vocab| > 0 {
      LexiconLength(vocab[1..]);
    }
  }

  /** The entries are exactly those of the non-space symbols. */
  lemma {:induction false} LexiconEntries(vocab: seq<char>)
    ensures forall c :: c in vocab && c != ' ' ==> LexiconEntry(c) in Lexicon(vocab)
    ensures forall e :: e in Lexicon(vocab) ==> exists c :: c in vocab && c != ' ' && e == LexiconEntry(c)
    decreases |vocab|
  {
    if |vocab| > 0 {
      LexiconEntries(vocab[1..]);
      forall c | c in vocab && c != ' '
        ensures LexiconEntry(c) in Lexicon(vocab)
      {
        if c != vocab[0] {
          assert c in vocab[1..];
        }
      }
      forall e | e in Lexicon(vocab)
        ensures exists c :: c in vocab && c != ' ' && e == LexiconEntry(c)
      {
        if e in Lexicon(vocab[1..]) {
          var c :| c in vocab[1..] && c != ' ' && e == LexiconEntry(c);
          assert c in vocab;
        } else {
          assert e == LexiconEntry(vocab[0]);
        }
      }
    }
  }

  /** No lexicon has an entry for the space symbol. */
  lemma NoSpaceEntry(vocab: seq<char>)
    ensures LexiconEntry(' ') !in Lexicon(vocab)
  {
    LexiconEntries(vocab);
    forall c: char
      ensures LexiconEntry(c)[0] == c
    {
    }
  }

  /** A vocabulary that opens with the space and has no other gets one entry per
      remaining symbol. */
  lemma LexiconAfterSpace(rest: string)
    requires ' ' !in rest
    ensures |Lexicon([' '] + rest)| == |rest|
  {
    LexiconLength([' '] + rest);
    CountAppend([' '], rest, ' ');
    CountAbsent(rest, ' ');
  }

  /** The written lexicon has 33 entries: the 34 symbols less the space. */
  lemma FixedLexiconSize()
    ensures |Lexicon(Vocab)| == 33
  {
    assert ' ' !in Letters && |Letters| == 33;
    LexiconAfterSpace(Letters);
  }
}

=== FILE: json.dfy ===
/** JSON Lines input as the scripts see it after `json.loads`: one line is either
    not a JSON object at all, or an object whose values are strings or some other
    JSON value that the scripts only copy or format. */
module Json {

  datatype Option<+T> = None | Some(value: T)

  /** A JSON value. `Other` stands for any non-string value (number, boolean, null,
      list, object); `rendered` is what Python's `str()` makes of it, which is what
      an f-string writes. */
  datatype Value = Str(s: string) | Other(rendered: string)

  /** One input line: `Undecodable` when `json.loads` fails or the line is not an
      object; otherwise the decoded key/value map. */
  datatype Line = Undecodable | Object(fields: map<string, Value>)

  /** What `f"{v}"` writes for a value. */
  function Render(v: Value): string
  {
    match v
    case Str(s) => s
    case Other(r) => r
  }

  /** `data[key]` on a decoded line; `None` where Python raises. */
  function Get(line: Line, key: string): (r: Option<Value>)
    ensures r.Some? <==> line.Object? && key in line.fields
    ensures r.Some? ==> r.value == line.fields[key]
  {
    if line.Object? && key in line.fields then Some(line.fields[key]) else None
  }

  /** `data[key]` where the value is then used as a `str` (split, basename, join);
      `None` when the key is missing or the value is not a string, where Python
      raises `KeyError`, `AttributeError` or `TypeError`. */
  function GetStr(line: Line, key: string): (r: Option<string>)
    ensures r.Some? <==> line.Object? && key in line.fields && line.fields[key].Str?
    ensures r.Some? ==> line.fields[key] == Str(r.value)
  {
    match Get(line, key)
    case Some(Str(s)) => Some(s)
    case _ => None
  }

  /** The records read before a run stops, and whether it stopped early. */
  datatype Decoded<T> = Decoded(items: seq<T>, aborted: bool)

  /** Reads `lines` in order until the first one `decode` rejects. A rejected line
      stands for an exception nobody catches: it ends the whole run, and only the
      lines before it have been handled. */
  function DecodeUntilFailure<T>(lines: seq<Line>, decode: Line -> Option<T>): (r: Decoded<T>)
    ensures |r.items| <= |lines|
    ensures forall i :: 0 <= i < |r.items| ==> decode(lines[i]) == Some(r.items[i])
    ensures r.aborted <==> |r.items| < |lines|
    ensures r.aborted ==> decode(lines[|r.items|]).None?
    decreases |lines|
  {
    if |lines| == 0 then Decoded([], false)
    else match decode(lines[0])
      case None => Decoded([], true)
      case Some(x) =>
        var rest := DecodeUntilFailure(lines[1..], decode);
        Decoded([x] + rest.items, rest.aborted)
  }
}

=== FILE: normalizer.dfy ===
/** The record normaliser of `prepare_manifest.py`: each flat utterance manifest
    (`basqueP*.json`, one JSON object per line) becomes a supervisions manifest and
    a recordings manifest. Every utterance yields a supervision; a recording is
    emitted for the first utterance of each audio id whose audio file can be read,
    tracked by a seen-set that starts empty for every input file. */
module Normalizer {
  import opened Text
  import opened PosixPath
  import opened Json

  /** One input line with the four keys the script reads. */
  datatype Utterance = Utterance(audioFilepath: string, text: Value, clientId: Value, duration: Value)

  datatype Supervision = Supervision(
    id: string,
    recordingId: string,
    start: real,
    duration: Value,
    channel: int,
    text: Value,
    language: string,
    speaker: Value)

  datatype AudioSource = AudioSource(kind: string, channels: seq<int>, source: string)

  datatype Recording = Recording(
    id: string,
    sources: seq<AudioSource>,
    samplingRate: int,
    numSamples: int,
    duration: Value,
    channelIds: seq<int>)

  /** What opening an audio file reports. */
  datatype AudioInfo = AudioInfo(samplingRate: int, numSamples: int)

  /** The audio-file probe (`soundfile.SoundFile`): `None` when reading fails. */
  type Probe = string -> Option<AudioInfo>

  /** Language code written into every supervision. */
  const Language: string := "eu"

  /** The four lookups and the `basename` call that precede any write for a line;
      `None` where one of them raises, which ends the run. */
  function DecodeUtterance(line: Line): (r: Option<Utterance>)
    ensures r.Some? <==>
              && GetStr(line, "audio_filepath").Some?
              && line.Object?
              && "text" in line.fields && "client_id" in line.fields && "duration" in line.fields
    ensures r.Some? ==>
              && r.value.audioFilepath == GetStr(line, "audio_filepath").value
              && r.value.text == line.fields["text"]
              && r.value.clientId == line.fields["client_id"]
              && r.value.duration == line.fields["duration"]
  {
    match (GetStr(line, "audio_filepath"), Get(line, "text"), Get(line, "client_id"), Get(line, "duration"))
    case (Some(p), Some(t), Some(c), Some(d)) => Some(Utterance(p, t, c, d))
    case _ => None
  }

  /** The audio id: the file name with its last extension removed. */
  function AudioId(path: string): string
  {
    SplitextRoot(Basename(path))
  }

  /** The audio id is a '/'-free prefix of the file name; when it is shorter, the rest
      is a single extension: a dot followed by no further dot. */
  lemma AudioIdShape(path: string)
    ensures AudioId(path) <= Basename(path)
    ensures '/' !in AudioId(path)
    ensures AudioId(path) != Basename(path) ==>
              var name := Basename(path);
              var id := AudioId(path);
              name[|id|] == '.' && forall j :: |id| < j < |name| ==> name[j] != '.'
  {
    var name := Basename(path);
    BasenameShape(path);
    SplitextRootShape(name);
    var id := SplitextRoot(name);
    assert id == name[..|id|];
    forall j | 0 <= j < |id|
      ensures id[j] != '/'
    {
      assert id[j] == name[j];
    }
  }

  function SupervisionOf(u: Utterance): Supervision
  {
    var id := AudioId(u.audioFilepath);
    Supervision(id, id, 0.0, u.duration, 0, u.text, Language, u.clientId)
  }

  function RecordingOf(u: Utterance, info: AudioInfo): Recording
  {
    Recording(
      AudioId(u.audioFilepath),
      [AudioSource("file", [0], u.audioFilepath)],
      info.samplingRate,
      info.numSamples,
      u.duration,
      [0])
  }

  /** The state of the loop over one input file: what has been written to the two
      outputs, the seen-set, and the paths handed to the probe so far. */
  datatype State = State(
    supervisions: seq<Supervision>,
    recordings: seq<Recording>,
    seen: set<string>,
    probed: seq<string>)

  /** One loop iteration. The supervision is written first. A failed probe skips the
      rest of the iteration, so the id is not added to the seen-set. */
  function Step(st: State, u: Utterance, probe: Probe): State
  {
    var id := AudioId(u.audioFilepath);
    var st' := st.(supervisions := st.supervisions + [SupervisionOf(u)]);
    if id in st.seen then st'
    else match probe(u.audioFilepath)
      case None => st'.(probed := st.probed + [u.audioFilepath])
      case Some(info) =>
        st'.(recordings := st.recordings + [RecordingOf(u, info)],
             seen := st.seen + {id},
             probed := st.probed + [u.audioFilepath])
  }

  /** The loop over the utterances of one file, from a fresh, empty seen-set. */
  function Run(us: seq<Utterance>, probe: Probe): (st: State)
    ensures |st.supervisions| == |us|
    ensures forall i :: 0 <= i < |us| ==>
              var s := st.supervisions[i];
              && s.id == AudioId(us[i].audioFilepath)
              && s.recordingId == s.id
              && s.start == 0.0
              && s.channel == 0
              && s.language == "eu"
              && s.speaker == us[i].clientId
              && s.text == us[i].text
              && s.duration == us[i].duration
    decreases |us|
  {
    if |us| == 0 then State([], [], {}, [])
    else
      var n := |us| - 1;
      var prev := Run(us[..n], probe);
      var st := Step(prev, us[n], probe);
      assert st.supervisions == prev.supervisions + [SupervisionOf(us[n])];
      assert forall i :: 0 <= i < n ==> us[..n][i] == us[i];
      st
  }

  /** The ids of a list of recordings. */
  function RecordingIds(rs: seq<Recording>): set<string>
  {
    set m | 0 <= m < |rs| :: rs[m].id
  }

  /** No two recordings share an id. */
  predicate DistinctIds(rs: seq<Recording>)
  {
    forall m, n :: 0 <= m < n < |rs| ==> rs[m].id != rs[n].id
  }

  /** What the loop keeps true: the seen-set holds exactly the ids of the recordings
      written so far, and those ids are pairwise distinct. */
  predicate SeenInvariant(st: State)
  {
    && st.seen == RecordingIds(st.recordings)
    && DistinctIds(st.recordings)
    && |st.seen| == |st.recordings|
  }

  /** Writing one more recording adds its id. */
  lemma RecordingIdsAppend(rs: seq<Recording>, r: Recording)
    ensures RecordingIds(rs + [r]) == RecordingIds(rs) + {r.id}
  {
    var both := rs + [r];
    forall x | x in RecordingIds(both)
      ensures x in RecordingIds(rs) + {r.id}
    {
      var m :| 0 <= m < |both| && both[m].id == x;
      if m < |rs| {
        assert rs[m].id == x;
      }
    }
    forall x | x in RecordingIds(rs)
      ensures x in RecordingIds(both)
    {
      var m :| 0 <= m < |rs| && rs[m].id == x;
      assert both[m].id == x;
    }
    assert both[|rs|].id == r.id;
  }

  /** A recording with a new id keeps the ids distinct. */
  lemma DistinctIdsAppend(rs: seq<Recording>, r: Recording)
    requires DistinctIds(rs) && r.id !in RecordingIds(rs)
    ensures DistinctIds(rs + [r])
  {
    forall m | 0 <= m < |rs|
      ensures rs[m].id != r.id
    {
      assert rs[m].id in RecordingIds(rs);
    }
  }

  /** One iteration keeps the invariant: a recording is written only for an id not yet
      seen, and the id is added right after. */
  lemma StepKeepsInvariant(st: State, u: Utterance, probe: Probe)
    requires SeenInvariant(st)
    ensures SeenInvariant(Step(st, u, probe))
  {
    var id := AudioId(u.audioFilepath);
    var next := Step(st, u, probe);
    if id !in st.seen && probe(u.audioFilepath).Some? {
      var r := RecordingOf(u, probe(u.audioFilepath).value);
      assert next.recordings == st.recordings + [r] && next.seen == st.seen + {id} && r.id == id;
      RecordingIdsAppend(st.recordings, r);
      DistinctIdsAppend(st.recordings, r);
    } else {
      assert next.recordings == st.recordings && next.seen == st.seen;
    }
  }

  /** The loop keeps its seen-set equal to the ids of the recordings written so far,
      and those ids pairwise distinct. */
  lemma {:induction false} RunInvariants(us: seq<Utterance>, probe: Probe)
    ensures SeenInvariant(Run(us, probe))
    decreases |us|
  {
    if |us| > 0 {
      var n := |us| - 1;
      RunInvariants(us[..n], probe);
      assert Run(us, probe) == Step(Run(us[..n], probe), us[n], probe);
      StepKeepsInvariant(Run(us[..n], probe), us[n], probe);
    }
  }

  /** Whether one of the first `n` utterances has audio id `id` and a probe that
      succeeds: exactly the ids a recording has been emitted for by then. */
  predicate ProbedOkBefore(us: seq<Utterance>, probe: Probe, n: int, id: string)
  {
    exists k :: 0 <= k < n && k < |us| && AudioId(us[k].audioFilepath) == id && probe(us[k].audioFilepath).Some?
  }

  /** Reference definition without a seen-set: utterance k is probed when no earlier
      utterance with its id was probed successfully. */
  function ExpectedProbes(us: seq<Utterance>, probe: Probe): seq<string>
    decreases |us|
  {
    if |us| == 0 then []
    else
      var n := |us| - 1;
      ExpectedProbes(us[..n], probe) +
        (if ProbedOkBefore(us, probe, n, AudioId(us[n].audioFilepath)) then [] else [us[n].audioFilepath])
  }

  /** Reference definition without a seen-set: utterance k yields a recording when
      no earlier utterance with its id was probed successfully and its own probe
      succeeds. */
  function ExpectedRecordings(us: seq<Utterance>, probe: Probe): seq<Recording>
    decreases |us|
  {
    if |us| == 0 then []
    else
      var n := |us| - 1;
      var u := us[n];
      ExpectedRecordings(us[..n], probe) +
        (if !ProbedOkBefore(us, probe, n, AudioId(u.audioFilepath)) && probe(u.audioFilepath).Some?
         then [RecordingOf(u, probe(u.audioFilepath).value)]
         else [])
  }

  /** `ProbedOkBefore` only looks at the first `n` utterances. */
  lemma ProbedOkBeforeSamePrefix(us: seq<Utterance>, vs: seq<Utterance>, probe: Probe, n: int, id: string)
    requires 0 <= n <= |us| && n <= |vs| && us[..n] == vs[..n]
    ensures ProbedOkBefore(us, probe, n, id) <==> ProbedOkBefore(vs, probe, n, id)
  {
    forall k | 0 <= k < n
      ensures us[k] == vs[k]
    {
      assert us[..n][k] == vs[..n][k];
    }
  }

  lemma ProbedOkBeforePrefix(us: seq<Utterance>, probe: Probe, n: int, id: string)
    requires 0 <= n <= |us|
    ensures ProbedOkBefore(us[..n], probe, n, id) <==> ProbedOkBefore(us, probe, n, id)
  {
    ProbedOkBeforeSamePrefix(us[..n], us, probe, n, id);
  }

  /** One iteration, read against the reference: if the seen-set holds the ids probed
      successfully among the first `n` utterances, then after utterance `n` it holds
      those among the first `n + 1`, the probe was called unless the id was already
      probed successfully, and a recording was written when, in addition, this probe
      succeeded. */
  lemma StepMatchesReference(prev: State, us: seq<Utterance>, probe: Probe)
    requires |us| > 0
    requires forall x :: x in prev.seen <==> ProbedOkBefore(us, probe, |us| - 1, x)
    ensures var n := |us| - 1;
            var u := us[n];
            var next := Step(prev, u, probe);
            var before := ProbedOkBefore(us, probe, n, AudioId(u.audioFilepath));
            && (forall x :: x in next.seen <==> ProbedOkBefore(us, probe, |us|, x))
            && next.probed == prev.probed + (if before then [] else [u.audioFilepath])
            && next.recordings == prev.recordings +
                 (if !before && probe(u.audioFilepath).Some? then [RecordingOf(u, probe(u.audioFilepath).value)] else [])
  {
    var n := |us| - 1;
    var u := us[n];
    var id := AudioId(u.audioFilepath);
    forall x
      ensures ProbedOkBefore(us, probe, |us|, x) <==>
                ProbedOkBefore(us, probe, n, x) || (x == id && probe(u.audioFilepath).Some?)
    {
      if ProbedOkBefore(us, probe, |us|, x) && !ProbedOkBefore(us, probe, n, x) {
        var k :| 0 <= k < |us| && AudioId(us[k].audioFilepath) == x && probe(us[k].audioFilepath).Some?;
        assert k == n;
      }
    }
  }

  /** The loop with its seen-set agrees with the reference definitions: the seen-set
      holds exactly the ids probed successfully so far, the probe is called exactly
      for the utterances the reference names, and the recordings are exactly the
      reference ones. */
  lemma {:induction false} RunMatchesReference(us: seq<Utterance>, probe: Probe)
    ensures forall id :: id in Run(us, probe).seen <==> ProbedOkBefore(us, probe, |us|, id)
    ensures Run(us, probe).probed == ExpectedProbes(us, probe)
    ensures Run(us, probe).recordings == ExpectedRecordings(us, probe)
    decreases |us|
  {
    if |us| > 0 {
      var n := |us| - 1;
      var u := us[n];
      var before := ProbedOkBefore(us, probe, n, AudioId(u.audioFilepath));
      var prev := Run(us[..n], probe);
      assert Run(us, probe) == Step(prev, u, probe);
      assert ExpectedProbes(us, probe) == ExpectedProbes(us[..n], probe) + (if before then [] else [u.audioFilepath]);
      assert ExpectedRecordings(us, probe) == ExpectedRecordings(us[..n], probe) +
        (if !before && probe(u.audioFilepath).Some? then [RecordingOf(u, probe(u.audioFilepath).value)] else []);
      RunMatchesReference(us[..n], probe);
      assert |us[..n]| == n;
      forall x
        ensures x in prev.seen <==> ProbedOkBefore(us, probe, n, x)
      {
        ProbedOkBeforePrefix(us, probe, n, x);
      }
      StepMatchesReference(prev, us, probe);
    }
  }

  /** The audio ids of the utterances whose probe succeeds. */
  function ProbedOkIds(us: seq<Utterance>, probe: Probe): set<string>
  {
    set k | 0 <= k < |us| && probe(us[k].audioFilepath).Some? :: AudioId(us[k].audioFilepath)
  }

  /** One recording per distinct audio id that some utterance of the file probes
      successfully, and one supervision per utterance. */
  lemma RecordingCount(us: seq<Utterance>, probe: Probe)
    ensures |Run(us, probe).recordings| == |ProbedOkIds(us, probe)|
    ensures |Run(us, probe).supervisions| == |us|
  {
    var st := Run(us, probe);
    RunInvariants(us, probe);
    RunMatchesReference(us, probe);
    forall x
      ensures x in st.seen <==> x in ProbedOkIds(us, probe)
    {
      if x in st.seen {
        var k :| 0 <= k < |us| && AudioId(us[k].audioFilepath) == x && probe(us[k].audioFilepath).Some?;
        assert x in ProbedOkIds(us, probe);
      }
    }
    assert st.seen == ProbedOkIds(us, probe);
  }

  /** A probe failure leaves the id out of the seen-set, so a later utterance with the
      same id is probed again (and yields the recording if that probe succeeds). */
  lemma FailedProbeIsRetried(us: seq<Utterance>, probe: Probe, j: int)
    requires 0 <= j < |us|
    requires forall k :: 0 <= k < j && AudioId(us[k].audioFilepath) == AudioId(us[j].audioFilepath) ==>
               probe(us[k].audioFilepath).None?
    ensures AudioId(us[j].audioFilepath) !in Run(us[..j], probe).seen
    ensures Run(us[..j + 1], probe).probed == Run(us[..j], probe).probed + [us[j].audioFilepath]
    ensures probe(us[j].audioFilepath).Some? ==>
              Run(us[..j + 1], probe).recordings ==
                Run(us[..j], probe).recordings + [RecordingOf(us[j], probe(us[j].audioFilepath).value)]
  {
    var id := AudioId(us[j].audioFilepath);
    RunMatchesReference(us[..j], probe);
    ProbedOkBeforePrefix(us, probe, j, id);
    assert us[..j + 1][..j] == us[..j];
  }

  /** Recording `r` is the one utterance `k` yields: `k` is the first utterance of its
      id whose probe succeeds, the source is its unmodified path on channel 0, the
      rate and sample count are what the probe reported, and the duration is copied. */
  predicate EmittedFrom(r: Recording, us: seq<Utterance>, probe: Probe, k: int)
  {
    && 0 <= k < |us|
    && r.id == AudioId(us[k].audioFilepath)
    && !ProbedOkBefore(us, probe, k, r.id)
    && probe(us[k].audioFilepath) == Some(AudioInfo(r.samplingRate, r.numSamples))
    && r.sources == [AudioSource("file", [0], us[k].audioFilepath)]
    && r.duration == us[k].duration
    && r.channelIds == [0]
  }

  /** Some utterance emits `r` as `EmittedFrom` describes. */
  predicate HasSource(r: Recording, us: seq<Utterance>, probe: Probe)
  {
    exists k :: 0 <= k < |us| && EmittedFrom(r, us, probe, k)
  }

  /** Every recording is emitted from some utterance as `EmittedFrom` describes. */
  lemma RecordingProvenance(us: seq<Utterance>, probe: Probe)
    ensures forall m :: 0 <= m < |Run(us, probe).recordings| ==>
              HasSource(Run(us, probe).recordings[m], us, probe)
  {
    RunMatchesReference(us, probe);
    ExpectedProvenance(us, probe);
  }

  lemma {:induction false} ExpectedProvenance(us: seq<Utterance>, probe: Probe)
    ensures forall m :: 0 <= m < |ExpectedRecordings(us, probe)| ==>
              HasSource(ExpectedRecordings(us, probe)[m], us, probe)
    decreases |us|
  {
    if |us| > 0 {
      var n := |us| - 1;
      var u := us[n];
      ExpectedProvenance(us[..n], probe);
      var prev := ExpectedRecordings(us[..n], probe);
      var all := ExpectedRecordings(us, probe);
      var isNew := !ProbedOkBefore(us, probe, n, AudioId(u.audioFilepath)) && probe(u.audioFilepath).Some?;
      assert all == prev + (if isNew then [RecordingOf(u, probe(u.audioFilepath).value)] else []);
      forall m | 0 <= m < |all|
        ensures HasSource(all[m], us, probe)
      {
        if m < |prev| {
          var r := prev[m];
          assert all[m] == r;
          var k :| 0 <= k < n && EmittedFrom(r, us[..n], probe, k);
          EmittedFromPrefix(r, us, probe, n, k);
        } else {
          assert all[m] == RecordingOf(u, probe(u.audioFilepath).value);
          NewRecordingEmitted(us, probe);
        }
      }
    }
  }

  /** Provenance found in a prefix still holds in the whole sequence. */
  lemma EmittedFromPrefix(r: Recording, us: seq<Utterance>, probe: Probe, n: int, k: int)
    requires 0 <= k < n <= |us| && EmittedFrom(r, us[..n], probe, k)
    ensures EmittedFrom(r, us, probe, k)
  {
    assert us[..n][k] == us[k];
    ProbedOkBeforeSamePrefix(us[..n], us, probe, k, r.id);
  }

  /** The recording the last utterance yields is emitted from it. */
  lemma NewRecordingEmitted(us: seq<Utterance>, probe: Probe)
    requires |us| > 0
    requires var u := us[|us| - 1];
             !ProbedOkBefore(us, probe, |us| - 1, AudioId(u.audioFilepath)) && probe(u.audioFilepath).Some?
    ensures var u := us[|us| - 1];
            EmittedFrom(RecordingOf(u, probe(u.audioFilepath).value), us, probe, |us| - 1)
  {
  }

  /** Every recording id is the recording id of some supervision of the same file.
      (The converse fails when a probe fails; see `OrphanSupervision`.) */
  lemma RecordingHasSupervision(us: seq<Utterance>, probe: Probe)
    ensures forall m :: 0 <= m < |Run(us, probe).recordings| ==>
              exists i :: 0 <= i < |Run(us, probe).supervisions| &&
                Run(us, probe).supervisions[i].recordingId == Run(us, probe).recordings[m].id
  {
    RecordingProvenance(us, probe);
    var st := Run(us, probe);
    forall m | 0 <= m < |st.recordings|
      ensures exists i :: 0 <= i < |st.supervisions| && st.supervisions[i].recordingId == st.recordings[m].id
    {
      var k :| 0 <= k < |us| && EmittedFrom(st.recordings[m], us, probe, k);
      assert st.supervisions[k].recordingId == st.recordings[m].id;
    }
  }

  /** An audio id none of whose utterances can be read still has its supervisions,
      but no recording: utterance `k`'s supervision names a recording id that no
      recording carries. */
  lemma {:induction false} OrphanSupervision(us: seq<Utterance>, probe: Probe, k: int)
    requires 0 <= k < |us|
    requires forall j :: 0 <= j < |us| && AudioId(us[j].audioFilepath) == AudioId(us[k].audioFilepath) ==>
               probe(us[j].audioFilepath).None?
    ensures Run(us, probe).supervisions[k].recordingId == AudioId(us[k].audioFilepath)
    ensures AudioId(us[k].audioFilepath) !in RecordingIds(Run(us, probe).recordings)
  {
    var x := AudioId(us[k].audioFilepath);
    var st := Run(us, probe);
    RecordingProvenance(us, probe);
    forall m | 0 <= m < |st.recordings|
      ensures st.recordings[m].id != x
    {
      var source :| 0 <= source < |us| && EmittedFrom(st.recordings[m], us, probe, source);
    }
  }

  /** What the script leaves behind for one input file. */
  datatype FileOutput = FileOutput(
    supervisions: seq<Supervision>,
    recordings: seq<Recording>,
    probed: seq<string>,
    aborted: bool)

  /** One input file: the loop runs until the end or until a line raises. */
  function ProcessLines(lines: seq<Line>, probe: Probe): (r: FileOutput)
    ensures |r.supervisions| <= |lines|
    ensures !r.aborted <==> |r.supervisions| == |lines|
    ensures r.aborted ==> DecodeUtterance(lines[|r.supervisions|]).None?
  {
    var d := DecodeUntilFailure(lines, DecodeUtterance);
    var st := Run(d.items, probe);
    FileOutput(st.supervisions, st.recordings, st.probed, d.aborted)
  }

  /** Supervision i of a file is the one built from its line i, which decodes. */
  lemma ProcessLinesSupervisions(lines: seq<Line>, probe: Probe)
    ensures var r := ProcessLines(lines, probe);
            forall i :: 0 <= i < |r.supervisions| ==>
              DecodeUtterance(lines[i]).Some? && r.supervisions[i] == SupervisionOf(DecodeUtterance(lines[i]).value)
  {
    var d := DecodeUntilFailure(lines, DecodeUtterance);
    var st := Run(d.items, probe);
    assert ProcessLines(lines, probe).supervisions == st.supervisions;
    forall i | 0 <= i < |st.supervisions|
      ensures st.supervisions[i] == SupervisionOf(d.items[i])
    {
    }
  }

  /** The supervisions manifest written next to the input, its stem with `basqueP`
      replaced by `basqueP_supervisions`. */
  function SupervisionsPath(manifestsDir: string, jsonFile: string): string
  {
    Join(manifestsDir, ReplaceAll(SplitextRoot(Basename(jsonFile)), "basqueP", "basqueP_supervisions") + ".jsonl")
  }

  /** The recordings manifest written next to the input. */
  function RecordingsPath(manifestsDir: string, jsonFile: string): string
  {
    Join(manifestsDir, ReplaceAll(SplitextRoot(Basename(jsonFile)), "basqueP", "basqueP_recordings") + ".jsonl")
  }

  /** For an input `basqueP<rest>.json` the outputs are `basqueP_supervisions<rest>.jsonl`
      and `basqueP_recordings<rest>.jsonl` in the manifests directory. */
  lemma OutputNames(manifestsDir: string, jsonFile: string, rest: string)
    requires Basename(jsonFile) == "basqueP" + rest + ".json"
    requires '.' !in rest && !Contains(rest, "basqueP")
    ensures SupervisionsPath(manifestsDir, jsonFile) == Join(manifestsDir, "basqueP_supervisions" + rest + ".jsonl")
    ensures RecordingsPath(manifestsDir, jsonFile) == Join(manifestsDir, "basqueP_recordings" + rest + ".jsonl")
  {
    var stem := "basqueP" + rest;
    assert Basename(jsonFile) == stem + "." + "json";
    BasenameShape(jsonFile);
    assert '/' !in stem by {
      assert forall i :: 0 <= i < |stem| ==> stem[i] == Basename(jsonFile)[i];
    }
    assert stem[0] != '.';
    SplitextOfDottedName(stem, "json");
    ReplaceAllLeading("basqueP", rest, "basqueP_supervisions");
    ReplaceAllLeading("basqueP", rest, "basqueP_recordings");
  }

  datatype InputFile = InputFile(path: string, lines: seq<Line>)

  /** The output of one input file, written to `SupervisionsPath(manifestsDir, input)`
      and `RecordingsPath(manifestsDir, input)`. */
  datatype FileRun = FileRun(input: string, output: FileOutput)

  /** The loop over the input files (in the order the directory listing gives them).
      Each file is handled from a fresh seen-set; a file whose run aborts ends the
      whole run. */
  function ProcessFiles(files: seq<InputFile>, probe: Probe): (runs: seq<FileRun>)
    ensures |runs| <= |files|
  {
    RunFiles(files, FileHandler(probe))
  }

  /** The per-file work of the loop, for a given probe. */
  function FileHandler(probe: Probe): seq<Line> -> FileOutput
  {
    lines => ProcessLines(lines, probe)
  }

  /** The loop over files for any per-file work `handle`. */
  function RunFiles(files: seq<InputFile>, handle: seq<Line> -> FileOutput): (runs: seq<FileRun>)
    ensures |runs| <= |files|
    decreases |files|
  {
    if |files| == 0 then []
    else
      var run := FileRun(files[0].path, handle(files[0].lines));
      if run.output.aborted then [run] else [run] + RunFiles(files[1..], handle)
  }

  /** Run j is file j handled on its own. */
  lemma {:induction false} RunFilesAligned(files: seq<InputFile>, handle: seq<Line> -> FileOutput)
    ensures var runs := RunFiles(files, handle);
            forall j :: 0 <= j < |runs| ==> runs[j] == FileRun(files[j].path, handle(files[j].lines))
    decreases |files|
  {
    if |files| > 0 {
      var run := FileRun(files[0].path, handle(files[0].lines));
      if !run.output.aborted {
        var rest := RunFiles(files[1..], handle);
        var runs := [run] + rest;
        assert RunFiles(files, handle) == runs;
        RunFilesAligned(files[1..], handle);
        forall j | 0 < j < |runs|
          ensures runs[j] == FileRun(files[j].path, handle(files[j].lines))
        {
          assert runs[j] == rest[j - 1];
          assert files[1..][j - 1] == files[j];
        }
      }
    }
  }

  /** Every run but the last completes, and the loop stops early only after a run
      that aborts. */
  lemma {:induction false} RunFilesStops(files: seq<InputFile>, handle: seq<Line> -> FileOutput)
    ensures var runs := RunFiles(files, handle);
            && (forall j :: 0 <= j < |runs| - 1 ==> !runs[j].output.aborted)
            && (|runs| < |files| ==> |runs| > 0 && runs[|runs| - 1].output.aborted)
    decreases |files|
  {
    if |files| > 0 {
      var run := FileRun(files[0].path, handle(files[0].lines));
      if !run.output.aborted {
        var rest := RunFiles(files[1..], handle);
        var runs := [run] + rest;
        assert RunFiles(files, handle) == runs;
        RunFilesStops(files[1..], handle);
        assert forall j :: 0 < j < |runs| ==> runs[j] == rest[j - 1];
      }
    }
  }

  /** The whole run over the input files: run j is file j processed with its own
      fresh seen-set; every run but the last completes, and the loop stops early
      only after a run that aborts. */
  lemma ProcessFilesShape(files: seq<InputFile>, probe: Probe)
    ensures var runs := ProcessFiles(files, probe);
            && (forall j :: 0 <= j < |runs| ==> runs[j] == FileRun(files[j].path, ProcessLines(files[j].lines, probe)))
            && (forall j :: 0 <= j < |runs| - 1 ==> !runs[j].output.aborted)
            && (|runs| < |files| ==> |runs| > 0 && runs[|runs| - 1].output.aborted)
  {
    var handle := FileHandler(probe);
    assert ProcessFiles(files, probe) == RunFiles(files, handle);
    RunFilesAligned(files, handle);
    RunFilesStops(files, handle);
    forall lines: seq<Line>
      ensures handle(lines) == ProcessLines(lines, probe)
    {
    }
  }

  /** The seen-set is per file: file j gets a recording for an id exactly when one of
      its own handled utterances has that id and a readable audio file, whatever
      earlier files contained. */
  lemma SeenSetIsPerFile(files: seq<InputFile>, probe: Probe, j: int, id: string)
    requires 0 <= j < |ProcessFiles(files, probe)|
    ensures var out := ProcessFiles(files, probe)[j].output;
            var us := DecodeUntilFailure(files[j].lines, DecodeUtterance).items;
            id in RecordingIds(out.recordings) <==> ProbedOkBefore(us, probe, |us|, id)
  {
    var out := ProcessFiles(files, probe)[j].output;
    var us := DecodeUntilFailure(files[j].lines, DecodeUtterance).items;
    ProcessFilesShape(files, probe);
    assert out.recordings == Run(us, probe).recordings;
    RunInvariants(us, probe);
    RunMatchesReference(us, probe);
  }
}

=== FILE: path.dfy ===
/** The parts of Python's `posixpath` the scripts use: `basename`, the root half of
    `splitext`, and `join`. Only '/' separates path components. */
module PosixPath {
  import opened Text

  /** Whether every character of `s` is a dot (vacuously so for ""). */
  predicate OnlyDots(s: string)
  {
    forall i :: 0 <= i < |s| ==> s[i] == '.'
  }

  /** Whether `p[lo..hi]` is all dots. */
  predicate DotsBetween(p: string, lo: int, hi: int)
  {
    forall i :: lo <= i < hi && 0 <= i < |p| ==> p[i] == '.'
  }

  /** `os.path.basename(p)`: the longest suffix of `p` without a '/' (what follows
      `p.rfind('/')`). */
  function Basename(p: string): (b: string)
    ensures |b| <= |p|
    decreases |p|
  {
    if |p| == 0 || p[|p| - 1] == '/' then ""
    else Basename(p[..|p| - 1]) + [p[|p| - 1]]
  }

  /** The basename is a '/'-free suffix, preceded by a '/' when it is not all of `p`. */
  lemma {:induction false} BasenameShape(p: string)
    ensures '/' !in Basename(p)
    ensures p[|p| - |Basename(p)|..] == Basename(p)
    ensures |Basename(p)| < |p| ==> p[|p| - |Basename(p)| - 1] == '/'
    decreases |p|
  {
    if |p| > 0 && p[|p| - 1] != '/' {
      var q := p[..|p| - 1];
      BasenameShape(q);
      assert p == q + [p[|p| - 1]];
    }
  }

  /** A name without '/' is its own basename. */
  lemma {:induction false} BasenameOfName(name: string)
    requires '/' !in name
    ensures Basename(name) == name
    decreases |name|
  {
    if |name| > 0 {
      var q := name[..|name| - 1];
      assert '/' !in q by {
        assert forall i :: 0 <= i < |q| ==> q[i] == name[i];
      }
      BasenameOfName(q);
      assert name == q + [name[|name| - 1]];
    }
  }

  /** The root half of `os.path.splitext(p)`: `p` without its last extension. The
      last dot of the last component starts the extension, unless everything in
      front of it in that component is dots (".bashrc", "..x"), in which case
      nothing is split off. */
  function SplitextRoot(p: string): string
  {
    var sepIndex := RFind(p, '/');
    var dotIndex := RFind(p, '.');
    if dotIndex > sepIndex && !DotsBetween(p, sepIndex + 1, dotIndex) then p[..dotIndex] else p
  }

  /** The root is a prefix of `p`; what it drops is one extension: a dot followed by
      neither a dot nor a '/'. */
  lemma SplitextRootShape(p: string)
    ensures SplitextRoot(p) <= p
    ensures SplitextRoot(p) != p ==> p[|SplitextRoot(p)|] == '.'
    ensures SplitextRoot(p) != p ==>
              forall j :: |SplitextRoot(p)| < j < |p| ==> p[j] != '.' && p[j] != '/'
  {
    RFindIsLast(p, '/');
    RFindIsLast(p, '.');
  }

  /** A '/'-free name with a dot after some non-dot character loses its last extension. */
  lemma SplitextOfDottedName(stem: string, ext: string)
    requires '/' !in stem && '/' !in ext && '.' !in ext
    requires !OnlyDots(stem)
    ensures SplitextRoot(stem + "." + ext) == stem
  {
    var p := stem + "." + ext;
    RFindUnique(p, '/', -1);
    RFindUnique(p, '.', |stem|);
    assert p[..|stem|] == stem;
  }

  /** A '/'-free name without a dot is kept whole. */
  lemma SplitextOfUndottedName(name: string)
    requires '/' !in name && '.' !in name
    ensures SplitextRoot(name) == name
  {
    RFindUnique(name, '.', -1);
  }

  /** A '/'-free name whose last dot follows only dots is kept whole. */
  lemma SplitextOfHiddenName(dots: string, ext: string)
    requires OnlyDots(dots) && '.' !in ext && '/' !in ext
    ensures SplitextRoot(dots + "." + ext) == dots + "." + ext
  {
    var p := dots + "." + ext;
    RFindUnique(p, '/', -1);
    RFindUnique(p, '.', |dots|);
  }

  /** `os.path.join(a, b)`: an absolute `b` replaces `a`; otherwise a '/' is put
      between them unless `a` is empty or already ends with one. */
  function Join(a: string, b: string): string
  {
    if |b| > 0 && b[0] == '/' then b
    else if |a| == 0 || a[|a| - 1] == '/' then a + b
    else a + "/" + b
  }

  /** The joined path ends with `b`, and starts with `a` unless `b` is absolute. */
  lemma JoinShape(a: string, b: string)
    ensures |b| <= |Join(a, b)| && Join(a, b)[|Join(a, b)| - |b|..] == b
    ensures (|b| == 0 || b[0] != '/') ==> a <= Join(a, b)
  {
  }

  /** A character other than '/' that neither part holds is not in their join. */
  lemma JoinKeepsOut(a: string, b: string, c: char)
    requires c != '/' && c !in a && c !in b
    ensures c !in Join(a, b)
  {
  }

  /** `os.path.join(a, *parts)`. */
  function JoinAll(a: string, parts: seq<string>): string
    decreases |parts|
  {
    if |parts| == 0 then a else JoinAll(Join(a, parts[0]), parts[1..])
  }

  /** A character other than '/' that no part holds is not in their join. */
  lemma {:induction false} JoinAllKeepsOut(a: string, parts: seq<string>, c: char)
    requires c != '/' && c !in a && forall i :: 0 <= i < |parts| ==> c !in parts[i]
    ensures c !in JoinAll(a, parts)
    decreases |parts|
  {
    if |parts| > 0 {
      JoinKeepsOut(a, parts[0], c);
      assert forall i :: 0 <= i < |parts[1..]| ==> parts[1..][i] == parts[i + 1];
      JoinAllKeepsOut(Join(a, parts[0]), parts[1..], c);
    }
  }

  /** A component that joins with a single '/' on either side. */
  predicate Plain(c: string)
  {
    |c| > 0 && c[0] != '/' && c[|c| - 1] != '/'
  }

  /** Joining plain components puts exactly one '/' between each pair. */
  lemma JoinPlain(a: string, b: string)
    requires Plain(a) && Plain(b)
    ensures Join(a, b) == a + "/" + b
    ensures Plain(Join(a, b))
  {
  }

  /** The basename of a join is the '/'-free component that was joined last: the
      directory part never leaks into it. */
  lemma BasenameOfJoin(a: string, b: string)
    requires '/' !in b
    ensures Basename(Join(a, b)) == b
  {
    assert |b| == 0 || b[0] != '/';
    if |a| == 0 {
      assert Join(a, b) == b;
      BasenameOfName(b);
    } else if a[|a| - 1] == '/' {
      assert Join(a, b) == a + b;
      BasenameAfterSlash(a, b);
    } else {
      assert Join(a, b) == (a + "/") + b;
      BasenameAfterSlash(a + "/", b);
    }
  }

  /** What follows the last '/' is the basename. */
  lemma {:induction false} BasenameAfterSlash(dir: string, name: string)
    requires |dir| > 0 && dir[|dir| - 1] == '/' && '/' !in name
    ensures Basename(dir + name) == name
    decreases |name|
  {
    var p := dir + name;
    if |name| > 0 {
      var q := name[..|name| - 1];
      assert p[..|p| - 1] == dir + q;
      BasenameAfterSlash(dir, q);
      assert name == q + [name[|name| - 1]];
    } else {
      assert p == dir;
    }
  }
}

=== FILE: pipeline.dfy ===
/** How the scripts' naming conventions meet when they run one after another: the
    supervisions manifest written for `basqueP_<part>.json` is filed by the transcript
    builder under `<part>`; and the exporter and the normaliser cut a file name down
    to an utterance name in two different ways. */
module Pipeline {
  import opened Text
  import opened PosixPath
  import Normalizer
  import Exporter
  import Transcripts

  /** A part free of `basqueP` stays free of it behind an underscore, and is free of
      the longer supervisions prefix too. */
  lemma PartFreeOfTag(part: string)
    requires !Contains(part, "basqueP")
    ensures !Contains("_" + part, "basqueP")
    ensures !Contains(part, Transcripts.SupervisionsPrefix)
  {
    var rest := "_" + part;
    assert !("basqueP" <= rest) by {
      assert rest[0] != "basqueP"[0];
    }
    assert rest[1..] == part;
    if Contains(part, Transcripts.SupervisionsPrefix) {
      ContainsPatternPrefix(part, "basqueP", Transcripts.SupervisionsPrefix);
    }
  }

  /** The part of a file name `basqueP_<part>.json` has no '/'. */
  lemma PartOfName(jsonFile: string, part: string)
    requires Basename(jsonFile) == "basqueP_" + part + ".json"
    ensures '/' !in part
  {
    BasenameShape(jsonFile);
    forall i | 0 <= i < |part|
      ensures part[i] != '/'
    {
      assert part[i] == Basename(jsonFile)[8 + i];
    }
  }

  /** The two literals that carry an underscore, split before it. Stated on its own
      so that these facts about literals are proved apart from the path reasoning
      that uses them. */
  lemma UnderscoreLiterals()
    ensures "basqueP_" == "basqueP" + "_"
    ensures Transcripts.SupervisionsPrefix == "basqueP_supervisions" + "_"
    ensures Transcripts.JsonlSuffix == ".jsonl"
  {
  }

  /** Moving a separator from the end of a prefix to the front of what follows,
      proved apart for the same reason. */
  lemma Regroup(a: string, b: string, c: string, d: string)
    ensures (a + b) + c + d == a + (b + c) + d
  {
  }

  /** A shard name is a single path component when its part is; proved apart, as
      it needs the characters of both literals. */
  lemma ShardNameHasNoSlash(part: string)
    requires '/' !in part
    ensures '/' !in Transcripts.SupervisionsPrefix + part + Transcripts.JsonlSuffix
  {
  }

  /** A shard `basqueP_supervisions_<part>.jsonl` in any directory is filed under
      `<part>`. */
  lemma SubdirOfShardPath(dir: string, part: string)
    requires '.' !in part && '/' !in part && !Contains(part, "basqueP")
    ensures Transcripts.SubdirName(Basename(Join(dir, "basqueP_supervisions" + ("_" + part) + ".jsonl"))) == part
  {
    var name := Transcripts.SupervisionsPrefix + part + Transcripts.JsonlSuffix;
    ShardNameHasNoSlash(part);
    BasenameOfJoin(dir, name);
    UnderscoreLiterals();
    Regroup("basqueP_supervisions", "_", part, ".jsonl");
    PartFreeOfTag(part);
    Transcripts.SubdirNameOfShard(part);
  }

  /** The normaliser writes `basqueP_supervisions_<part>.jsonl` for
      `basqueP_<part>.json`, and the transcript builder names that shard's subtree
      `<part>`. */
  lemma ShardSubdirOfInput(manifestsDir: string, jsonFile: string, part: string)
    requires Basename(jsonFile) == "basqueP_" + part + ".json"
    requires '.' !in part && !Contains(part, "basqueP")
    ensures Transcripts.SubdirName(Basename(Normalizer.SupervisionsPath(manifestsDir, jsonFile))) == part
  {
    var rest := "_" + part;
    UnderscoreLiterals();
    assert Basename(jsonFile) == "basqueP" + rest + ".json";
    PartFreeOfTag(part);
    PartOfName(jsonFile, part);
    Normalizer.OutputNames(manifestsDir, jsonFile, rest);
    SubdirOfShardPath(manifestsDir, part);
  }

  /** For a file name with two dots, `a.b.wav`, the exporter's utterance name keeps
      `a` (everything before the first dot) while the normaliser's audio id keeps
      `a.b` (everything before the last): the two scripts disagree. */
  lemma StemsDisagreeOnTwoDots(dir: string, a: string, b: string, ext: string)
    requires |a| > 0 && '.' !in a && '/' !in a && '.' !in b && '/' !in b && '.' !in ext && '/' !in ext
    ensures Exporter.FileStem(Join(dir, a + "." + b + "." + ext)) == a
    ensures Normalizer.AudioId(Join(dir, a + "." + b + "." + ext)) == a + "." + b
    ensures Exporter.FileStem(Join(dir, a + "." + b + "." + ext)) != Normalizer.AudioId(Join(dir, a + "." + b + "." + ext))
  {
    var name := a + "." + b + "." + ext;
    assert '/' !in name;
    BasenameOfJoin(dir, name);
    assert name == a + ['.'] + (b + "." + ext);
    FirstIndexUnique(name, '.', |a|);
    assert name[..|a|] == a;
    assert name == (a + "." + b) + "." + ext;
    assert !OnlyDots(a + "." + b) by {
      assert (a + "." + b)[0] == a[0];
    }
    SplitextOfDottedName(a + "." + b, ext);
    assert |a + "." + b| != |a|;
  }
}

=== FILE: rewriter.dfy ===
/** The path rewriter of `update_audio_filepaths.py`: every record of every manifest
    gets its `audio_filepath` moved into a new audio directory, keeping the file name,
    and each manifest is overwritten with the rewritten records. */
module Rewriter {
  import opened PosixPath
  import opened Json

  /** `os.path.join(new_audio_dir, os.path.basename(original))`. */
  function NewPath(audioDir: string, original: string): string
  {
    Join(audioDir, Basename(original))
  }

  /** The new path keeps the file name of the old one. */
  lemma NewPathKeepsName(audioDir: string, original: string)
    ensures Basename(NewPath(audioDir, original)) == Basename(original)
  {
    BasenameShape(original);
    BasenameOfJoin(audioDir, Basename(original));
  }

  /** Into a directory not ending in '/', the new path is the directory, a '/', and
      the old file name. */
  lemma NewPathInDir(audioDir: string, original: string)
    requires |audioDir| > 0 && audioDir[|audioDir| - 1] != '/'
    ensures NewPath(audioDir, original) == audioDir + "/" + Basename(original)
  {
    BasenameShape(original);
    var name := Basename(original);
    assert |name| == 0 || name[0] != '/' by {
      if |name| > 0 {
        assert name[0] in name;
      }
    }
  }

  /** Moving into `d1` and then into `d2` is moving into `d2` directly; with `d1 == d2`
      this is idempotence. */
  lemma NewPathOverwrite(d1: string, d2: string, original: string)
    ensures NewPath(d2, NewPath(d1, original)) == NewPath(d2, original)
  {
    NewPathKeepsName(d1, original);
  }

  /** The rewrite of one decoded record; `None` where `data['audio_filepath']` raises or
      `basename` rejects a non-string value. */
  function RewriteRecord(fields: map<string, Value>, audioDir: string): (r: Option<map<string, Value>>)
    ensures r.Some? <==> "audio_filepath" in fields && fields["audio_filepath"].Str?
    ensures r.Some? ==> r.value.Keys == fields.Keys
    ensures r.Some? ==> forall k :: k in fields && k != "audio_filepath" ==> r.value[k] == fields[k]
    ensures r.Some? ==> r.value["audio_filepath"] == Str(NewPath(audioDir, fields["audio_filepath"].s))
    ensures r.Some? ==> r.value["audio_filepath"].Str? &&
                        Basename(r.value["audio_filepath"].s) == Basename(fields["audio_filepath"].s)
  {
    if "audio_filepath" in fields && fields["audio_filepath"].Str? then
      NewPathKeepsName(audioDir, fields["audio_filepath"].s);
      Some(fields["audio_filepath" := Str(NewPath(audioDir, fields["audio_filepath"].s))])
    else None
  }

  /** Whether the record would be rewritten; this does not depend on the directory. */
  predicate Rewritable(line: Line)
  {
    line.Object? && "audio_filepath" in line.fields && line.fields["audio_filepath"].Str?
  }

  /** One input line: it must decode to an object before it can be rewritten. */
  function RewriteLine(line: Line, audioDir: string): (r: Option<Line>)
    ensures r.Some? <==> Rewritable(line)
    ensures r.Some? ==> r.value.Object? && Some(r.value.fields) == RewriteRecord(line.fields, audioDir)
  {
    match line
    case Undecodable => None
    case Object(fields) =>
      match RewriteRecord(fields, audioDir)
      case None => None
      case Some(f) => Some(Object(f))
  }

  /** Whether every line of a file can be rewritten. */
  predicate AllRewritable(lines: seq<Line>)
  {
    forall i :: 0 <= i < |lines| ==> Rewritable(lines[i])
  }

  /** The inner loop over one file: all lines rewritten, in order, or `None` when one of
      them raises, in which case the file is not written. */
  function RewriteLines(lines: seq<Line>, audioDir: string): (r: Option<seq<Line>>)
    ensures r.Some? <==> AllRewritable(lines)
    ensures r.Some? ==> |r.value| == |lines|
    ensures r.Some? ==> forall i :: 0 <= i < |lines| ==> RewriteLine(lines[i], audioDir) == Some(r.value[i])
    decreases |lines|
  {
    if |lines| == 0 then Some([])
    else
      var head := RewriteLine(lines[0], audioDir);
      var rest := RewriteLines(lines[1..], audioDir);
      assert forall i :: 1 <= i < |lines| ==> lines[i] == lines[1..][i - 1];
      if head.Some? && rest.Some? then Some([head.value] + rest.value) else None
  }

  /** Rewriting a record with `d1` and then with `d2` is rewriting it with `d2`. */
  lemma RewriteLineOverwrite(line: Line, d1: string, d2: string)
    requires Rewritable(line)
    ensures RewriteLine(line, d1).Some?
    ensures RewriteLine(RewriteLine(line, d1).value, d2) == RewriteLine(line, d2)
  {
    var original := line.fields["audio_filepath"].s;
    NewPathOverwrite(d1, d2, original);
    var once := line.fields["audio_filepath" := Str(NewPath(d1, original))];
    assert RewriteLine(line, d1) == Some(Object(once));
    assert once["audio_filepath" := Str(NewPath(d2, NewPath(d1, original)))] ==
           line.fields["audio_filepath" := Str(NewPath(d2, original))];
  }

  /** The same for a whole file. */
  lemma {:induction false} RewriteLinesOverwrite(lines: seq<Line>, d1: string, d2: string)
    ensures RewriteLines(lines, d1).Some? ==>
              RewriteLines(RewriteLines(lines, d1).value, d2) == RewriteLines(lines, d2)
    decreases |lines|
  {
    var r1 := RewriteLines(lines, d1);
    if |lines| > 0 && r1.Some? {
      RewriteLinesOverwrite(lines[1..], d1, d2);
      RewriteLineOverwrite(lines[0], d1, d2);
      var once := r1.value;
      assert once[1..] == RewriteLines(lines[1..], d1).value;
    }
  }

  /** Rewriting a file twice with the same directory is rewriting it once. */
  lemma RewriteLinesIdempotent(lines: seq<Line>, audioDir: string)
    ensures RewriteLines(lines, audioDir).Some? ==>
              RewriteLines(RewriteLines(lines, audioDir).value, audioDir) == RewriteLines(lines, audioDir)
  {
    RewriteLinesOverwrite(lines, audioDir, audioDir);
  }

  /** A manifest: its path and its decoded lines. */
  datatype Manifest = Manifest(path: string, lines: seq<Line>)

  /** The manifests after a run, and whether a line raised and ended it. */
  datatype Outcome = Outcome(manifests: seq<Manifest>, aborted: bool)

  /** The position of the first manifest that cannot be rewritten, or the number of
      manifests when there is none. */
  function FirstFailure(manifests: seq<Manifest>): (k: nat)
    ensures k <= |manifests|
    ensures forall j :: 0 <= j < k ==> AllRewritable(manifests[j].lines)
    ensures k < |manifests| ==> !AllRewritable(manifests[k].lines)
    decreases |manifests|
  {
    if |manifests| == 0 || !AllRewritable(manifests[0].lines) then 0
    else
      var k := FirstFailure(manifests[1..]);
      assert forall j :: 1 <= j < 1 + k ==> manifests[j] == manifests[1..][j - 1];
      1 + k
  }

  /** The outer loop: manifests are rewritten and overwritten one by one, in order; the
      first line that raises ends the run, leaving its own manifest and every later one
      as they were. */
  function RewriteAll(manifests: seq<Manifest>, audioDir: string): (r: Outcome)
    ensures |r.manifests| == |manifests|
    ensures forall j :: 0 <= j < |manifests| ==> r.manifests[j].path == manifests[j].path
    decreases |manifests|
  {
    if |manifests| == 0 then Outcome([], false)
    else match RewriteLines(manifests[0].lines, audioDir)
      case None => Outcome(manifests, true)
      case Some(lines) =>
        var rest := RewriteAll(manifests[1..], audioDir);
        Outcome([Manifest(manifests[0].path, lines)] + rest.manifests, rest.aborted)
  }

  /** The manifests before the first failing one are rewritten, that one and every later
      one are left alone, and the run is aborted exactly when there is a failing one. */
  lemma {:induction false} RewriteAllSplit(manifests: seq<Manifest>, audioDir: string)
    ensures var r := RewriteAll(manifests, audioDir);
            var k := FirstFailure(manifests);
            && (r.aborted <==> k < |manifests|)
            && (forall j :: 0 <= j < k ==>
                  Some(r.manifests[j].lines) == RewriteLines(manifests[j].lines, audioDir))
            && (forall j :: k <= j < |manifests| ==> r.manifests[j] == manifests[j])
    decreases |manifests|
  {
    if |manifests| > 0 {
      if RewriteLines(manifests[0].lines, audioDir).Some? {
        var rest := manifests[1..];
        RewriteAllSplit(rest, audioDir);
        var r := RewriteAll(manifests, audioDir);
        var k := FirstFailure(manifests);
        assert k == 1 + FirstFailure(rest);
        assert r.manifests[1..] == RewriteAll(rest, audioDir).manifests;
        forall j | 1 <= j < |manifests|
          ensures r.manifests[j] == RewriteAll(rest, audioDir).manifests[j - 1]
          ensures manifests[j] == rest[j - 1]
        {
        }
      }
    }
  }

  /** The outcome of a run: the manifests before the first failing one are overwritten,
      and every record in them has its `audio_filepath` moved to
      `join(audioDir, basename(old))` with its other keys unchanged; the failing
      manifest and every later one are left as they were; the run is aborted exactly
      when some manifest fails. */
  lemma {:induction false} RewriteAllStopsAtFailure(manifests: seq<Manifest>, audioDir: string)
    ensures var r := RewriteAll(manifests, audioDir);
            var k := FirstFailure(manifests);
            && (r.aborted <==> k < |manifests|)
            && (forall j :: 0 <= j < k ==>
                  Some(r.manifests[j].lines) == RewriteLines(manifests[j].lines, audioDir))
            && (forall j, i :: 0 <= j < k && 0 <= i < |manifests[j].lines| ==>
                  && i < |r.manifests[j].lines|
                  && Rewritable(manifests[j].lines[i])
                  && RewrittenTo(manifests[j].lines[i], r.manifests[j].lines[i], audioDir))
            && (forall j :: k <= j < |manifests| ==> r.manifests[j] == manifests[j])
  {
    var r := RewriteAll(manifests, audioDir);
    var k := FirstFailure(manifests);
    RewriteAllSplit(manifests, audioDir);
    forall j, i | 0 <= j < k && 0 <= i < |manifests[j].lines|
      ensures i < |r.manifests[j].lines|
      ensures Rewritable(manifests[j].lines[i])
      ensures RewrittenTo(manifests[j].lines[i], r.manifests[j].lines[i], audioDir)
    {
      var lines := manifests[j].lines;
      assert AllRewritable(lines);
      LineRewrittenTo(lines[i], r.manifests[j].lines[i], audioDir);
    }
  }

  /** `after` is `before` with its audio path moved into `audioDir` and every other
      key kept. */
  predicate RewrittenTo(before: Line, after: Line, audioDir: string)
    requires Rewritable(before)
  {
    && after.Object?
    && after.fields.Keys == before.fields.Keys
    && after.fields["audio_filepath"] == Str(NewPath(audioDir, before.fields["audio_filepath"].s))
    && forall key :: key in before.fields && key != "audio_filepath" ==> after.fields[key] == before.fields[key]
  }

  /** The rewrite of a rewritable line is the line with its path moved. */
  lemma LineRewrittenTo(before: Line, after: Line, audioDir: string)
    requires Rewritable(before) && RewriteLine(before, audioDir) == Some(after)
    ensures RewrittenTo(before, after, audioDir)
  {
  }

  /** Running the rewriter with `d1` and then with `d2` leaves the manifests as running
      it with `d2` alone: the second run fails on the same manifest, if any, and moves
      every path it reaches into `d2`. */
  lemma {:induction false} RewriteAllOverwrite(manifests: seq<Manifest>, d1: string, d2: string)
    ensures RewriteAll(RewriteAll(manifests, d1).manifests, d2) == RewriteAll(manifests, d2)
    decreases |manifests|
  {
    if |manifests| > 0 {
      var once := RewriteAll(manifests, d1).manifests;
      if RewriteLines(manifests[0].lines, d1).Some? {
        RewriteLinesOverwrite(manifests[0].lines, d1, d2);
        RewriteAllOverwrite(manifests[1..], d1, d2);
        assert once[1..] == RewriteAll(manifests[1..], d1).manifests;
      }
    }
  }

  /** Rewriting all manifests twice with one directory is rewriting them once. */
  lemma RewriteAllIdempotent(manifests: seq<Manifest>, audioDir: string)
    ensures RewriteAll(RewriteAll(manifests, audioDir).manifests, audioDir) == RewriteAll(manifests, audioDir)
  {
    RewriteAllOverwrite(manifests, audioDir, audioDir);
  }
}

=== FILE: text.dfy ===
/** The few operations on Python `str` that the data-preparation scripts rely on,
    with Python's semantics: `s.split(c)`, `c.join(parts)`, `s.replace(old, new)`
    and `s.rfind(c)`. Strings are sequences of Dafny `char`s. */
module Text {

  /** Index of the first `c` in `s`, as `s.index(c)`. */
  function FirstIndex(s: string, c: char): (k: nat)
    requires c in s
    ensures k < |s| && s[k] == c
    ensures c !in s[..k]
  {
    if s[0] == c then 0
    else
      var k' := FirstIndex(s[1..], c);
      assert s[..k' + 1] == [s[0]] + s[1..][..k'];
      k' + 1
  }

  /** The first-occurrence characterisation pins `FirstIndex` down. */
  lemma FirstIndexUnique(s: string, c: char, k: nat)
    requires k < |s| && s[k] == c && c !in s[..k]
    ensures FirstIndex(s, c) == k
  {
  }

  /** Index of the last `c` in `s`, or -1 when there is none, as `s.rfind(c)`. */
  function RFind(s: string, c: char): (k: int)
    ensures -1 <= k < |s|
  {
    if |s| == 0 then -1
    else if s[|s| - 1] == c then |s| - 1
    else RFind(s[..|s| - 1], c)
  }

  /** `RFind` finds a `c`, and no `c` comes after it. */
  lemma {:induction false} RFindIsLast(s: string, c: char)
    ensures RFind(s, c) >= 0 ==> s[RFind(s, c)] == c
    ensures forall j :: RFind(s, c) < j < |s| ==> s[j] != c
    decreases |s|
  {
    if |s| > 0 && s[|s| - 1] != c {
      RFindIsLast(s[..|s| - 1], c);
    }
  }

  /** The last-occurrence characterisation pins `RFind` down. */
  lemma RFindUnique(s: string, c: char, k: int)
    requires -1 <= k < |s|
    requires k >= 0 ==> s[k] == c
    requires forall j :: k < j < |s| ==> s[j] != c
    ensures RFind(s, c) == k
  {
    RFindIsLast(s, c);
  }

  /** Number of occurrences of `c` in `s`. */
  function Count(s: string, c: char): nat
  {
    if |s| == 0 then 0
    else (if s[0] == c then 1 else 0) + Count(s[1..], c)
  }

  lemma {:induction false} CountAppend(a: string, b: string, c: char)
    ensures Count(a + b, c) == Count(a, c) + Count(b, c)
    decreases |a|
  {
    if |a| == 0 {
      assert a + b == b;
    } else {
      assert (a + b)[1..] == a[1..] + b;
      CountAppend(a[1..], b, c);
    }
  }

  lemma {:induction false} CountAbsent(s: string, c: char)
    requires c !in s
    ensures Count(s, c) == 0
    decreases |s|
  {
    if |s| > 0 {
      assert s[1..] <= s[1..];
      assert forall i :: 0 <= i < |s[1..]| ==> s[1..][i] == s[i + 1];
      CountAbsent(s[1..], c);
    }
  }

  /** A character that occurs is counted at least once. */
  lemma {:induction false} CountPresent(s: string, c: char, k: int)
    requires 0 <= k < |s| && s[k] == c
    ensures Count(s, c) >= 1
    decreases k
  {
    if k > 0 {
      assert s[1..][k - 1] == c;
      CountPresent(s[1..], c, k - 1);
    }
  }

  /** A character is absent exactly when it is counted zero times. */
  lemma CountZero(s: string, c: char)
    ensures Count(s, c) == 0 <==> c !in s
  {
    if c in s {
      var k :| 0 <= k < |s| && s[k] == c;
      CountPresent(s, c, k);
    } else {
      CountAbsent(s, c);
    }
  }

  /** `s.split(c)`: the maximal `c`-free pieces between the separators; never empty,
      and consecutive separators give empty pieces. */
  function Split(s: string, c: char): (parts: seq<string>)
    ensures |parts| >= 1
    ensures forall i :: 0 <= i < |parts| ==> c !in parts[i]
    decreases |s|
  {
    if c in s then
      var k := FirstIndex(s, c);
      [s[..k]] + Split(s[k + 1..], c)
    else
      [s]
  }

  /** `c.join(parts)`. */
  function JoinBy(parts: seq<string>, c: char): string
  {
    if |parts| == 0 then ""
    else if |parts| == 1 then parts[0]
    else parts[0] + [c] + JoinBy(parts[1..], c)
  }

  /** A character that is neither the separator nor in any piece is not in the join. */
  lemma {:induction false} JoinByKeepsOut(parts: seq<string>, c: char, d: char)
    requires d != c && forall i :: 0 <= i < |parts| ==> d !in parts[i]
    ensures d !in JoinBy(parts, c)
    decreases |parts|
  {
    if |parts| > 1 {
      assert forall i :: 0 <= i < |parts[1..]| ==> parts[1..][i] == parts[i + 1];
      JoinByKeepsOut(parts[1..], c, d);
    }
  }

  /** Joining the pieces of a split restores the string. */
  lemma {:induction false} JoinSplit(s: string, c: char)
    ensures JoinBy(Split(s, c), c) == s
    decreases |s|
  {
    if c in s {
      var k := FirstIndex(s, c);
      var rest := Split(s[k + 1..], c);
      JoinSplit(s[k + 1..], c);
      assert Split(s, c) == [s[..k]] + rest;
      assert ([s[..k]] + rest)[1..] == rest;
      assert s == s[..k] + [c] + s[k + 1..];
    }
  }

  /** Splitting a join of separator-free pieces gives the pieces back. */
  lemma {:induction false} SplitJoin(parts: seq<string>, c: char)
    requires |parts| >= 1
    requires forall i :: 0 <= i < |parts| ==> c !in parts[i]
    ensures Split(JoinBy(parts, c), c) == parts
    decreases |parts|
  {
    if |parts| > 1 {
      var head := parts[0];
      var tail := JoinBy(parts[1..], c);
      var s := head + [c] + tail;
      assert JoinBy(parts, c) == s;
      assert s[|head|] == c;
      assert s[..|head|] == head;
      FirstIndexUnique(s, c, |head|);
      assert s[|head| + 1..] == tail;
      forall i | 0 <= i < |parts| - 1
        ensures c !in parts[1..][i]
      {
        assert parts[1..][i] == parts[i + 1];
      }
      SplitJoin(parts[1..], c);
      assert Split(s, c) == [head] + Split(tail, c);
      assert parts == [head] + parts[1..];
    }
  }

  /** `s.split(c)` has one more piece than `s` has separators. */
  lemma {:induction false} SplitLength(s: string, c: char)
    ensures |Split(s, c)| == Count(s, c) + 1
    decreases |s|
  {
    if c in s {
      var k := FirstIndex(s, c);
      assert s == s[..k] + ([c] + s[k + 1..]);
      CountAppend(s[..k], [c] + s[k + 1..], c);
      CountAbsent(s[..k], c);
      assert ([c] + s[k + 1..])[1..] == s[k + 1..];
      SplitLength(s[k + 1..], c);
    } else {
      CountAbsent(s, c);
    }
  }

  /** `s.split(c)[0]`: the longest prefix of `s` free of `c`. */
  lemma FirstPieceIsLongestFreePrefix(s: string, c: char)
    ensures Split(s, c)[0] <= s
    ensures c !in Split(s, c)[0]
    ensures |Split(s, c)[0]| < |s| ==> s[|Split(s, c)[0]|] == c
  {
  }

  /** A `c`-free piece followed by `c` is the first piece of the split. */
  lemma FirstPieceBeforeSeparator(p: string, c: char, rest: string)
    requires c !in p
    ensures Split(p + [c] + rest, c)[0] == p
  {
    var s := p + [c] + rest;
    var first := Split(s, c)[0];
    FirstPieceIsLongestFreePrefix(s, c);
    assert s[|p|] == c;
    assert forall j :: 0 <= j < |p| ==> s[j] == p[j];
    assert forall j :: 0 <= j < |first| ==> s[j] == first[j];
    assert |first| == |p|;
  }

  /** Whether `pat` occurs in `s` (`pat in s` on Python strings). */
  predicate Contains(s: string, pat: string)
    decreases |s|
  {
    pat <= s || (|s| > 0 && Contains(s[1..], pat))
  }

  /** A pattern longer than the text cannot occur in it. */
  lemma {:induction false} ShortNoContains(s: string, pat: string)
    requires |s| < |pat|
    ensures !Contains(s, pat)
    decreases |s|
  {
    if |s| > 0 {
      ShortNoContains(s[1..], pat);
    }
  }

  /** A text that holds a pattern holds every prefix of it. */
  lemma {:induction false} ContainsPatternPrefix(s: string, p: string, q: string)
    requires p <= q && Contains(s, q)
    ensures Contains(s, p)
    decreases |s|
  {
    if !(q <= s) {
      ContainsPatternPrefix(s[1..], p, q);
    } else {
      assert s[..|p|] == q[..|p|];
    }
  }

  /** An occurrence in `a + b` lies inside `a`, inside `b`, or crosses the border
      and so uses the first character of `b`. */
  lemma {:induction false} NoContainsAppend(a: string, b: string, pat: string)
    requires |pat| > 0
    requires !Contains(a, pat) && !Contains(b, pat)
    requires |b| > 0 ==> b[0] !in pat
    ensures !Contains(a + b, pat)
    decreases |a|
  {
    if |a| == 0 {
      assert a + b == b;
    } else {
      assert !(pat <= a + b) by {
        if |pat| <= |a| {
          assert (a + b)[..|pat|] == a[..|pat|];
        } else if |pat| <= |a + b| {
          assert (a + b)[|a|] == b[0] && pat[|a|] in pat;
        }
      }
      assert (a + b)[1..] == a[1..] + b;
      NoContainsAppend(a[1..], b, pat);
    }
  }

  /** `s.replace(pat, rep)`: every non-overlapping occurrence of `pat`, scanned left
      to right, is replaced by `rep`. */
  function ReplaceAll(s: string, pat: string, rep: string): (r: string)
    requires |pat| > 0
    ensures !Contains(s, pat) ==> r == s
    decreases |s|
  {
    if |s| == 0 then ""
    else if pat <= s then rep + ReplaceAll(s[|pat|..], pat, rep)
    else [s[0]] + ReplaceAll(s[1..], pat, rep)
  }

  /** A leading occurrence is replaced and the scan resumes after it. */
  lemma ReplaceAllLeading(pat: string, rest: string, rep: string)
    requires |pat| > 0
    ensures ReplaceAll(pat + rest, pat, rep) == rep + ReplaceAll(rest, pat, rep)
  {
    assert pat <= pat + rest;
    assert (pat + rest)[|pat|..] == rest;
  }

  /** Removing a suffix whose first character the body never uses leaves the body. */
  lemma {:induction false} ReplaceAllDropsSuffix(body: string, tail: string)
    requires |tail| > 0 && tail[0] !in body
    ensures ReplaceAll(body + tail, tail, "") == body
    decreases |body|
  {
    if |body| == 0 {
      assert body + tail == tail + [];
      ReplaceAllLeading(tail, [], "");
    } else {
      assert !(tail <= body + tail) by {
        assert (body + tail)[0] == body[0];
      }
      assert (body + tail)[1..] == body[1..] + tail;
      ReplaceAllDropsSuffix(body[1..], tail);
    }
  }

  /** Removing every `pre` and then every `suf` from `pre + mid + suf` leaves `mid`,
      when `mid` and `suf` hold no `pre` and the first character of `suf` occurs in
      neither `pre` nor `mid`. */
  lemma StripPrefixAndSuffix(pre: string, mid: string, suf: string)
    requires |pre| > 0 && |suf| > 0
    requires !Contains(mid, pre) && !Contains(suf, pre)
    requires suf[0] !in pre && suf[0] !in mid
    ensures ReplaceAll(ReplaceAll(pre + mid + suf, pre, ""), suf, "") == mid
  {
    var rest := mid + suf;
    assert pre + mid + suf == pre + rest;
    ReplaceAllLeading(pre, rest, "");
    NoContainsAppend(mid, suf, pre);
    assert "" + rest == rest;
    ReplaceAllDropsSuffix(mid, suf);
  }
}

=== FILE: transcripts.dfy ===
/** The transcript tree builder of `generate_transcripts.py`: every well-formed
    supervision line appends one utterance line to a per-speaker, per-session
    `.trans.txt` file. A line whose JSON, keys or recording id are bad is skipped
    and the run goes on; lines reach the model already read as text. */
module Transcripts {
  import opened Text
  import opened PosixPath
  import opened Json

  /** The speaker used when a line has none. */
  const UnknownSpeaker: string := "unknown_speaker"

  /** The session key and the timestamp suffix of a recording id
      `session_date_sequence_timestamps`. */
  datatype RecordingId = RecordingId(key: string, timestamps: string)

  /** `recording_id.split('_')`: the first three pieces joined back form the session
      key, the rest joined back the timestamps; fewer than four pieces is malformed. */
  function ParseRecordingId(rid: string): Option<RecordingId>
  {
    var parts := Split(rid, '_');
    if |parts| < 4 then None
    else Some(RecordingId(parts[0] + "_" + parts[1] + "_" + parts[2], JoinBy(parts[3..], '_')))
  }

  /** The join of four or more pieces spelled out up to the third separator. */
  lemma JoinByFirstThree(parts: seq<string>, c: char)
    requires |parts| >= 4
    ensures JoinBy(parts, c) == parts[0] + [c] + parts[1] + [c] + parts[2] + [c] + JoinBy(parts[3..], c)
  {
    var tail := JoinBy(parts[3..], c);
    JoinByCons(parts[2..], c);
    assert parts[2..][1..] == parts[3..];
    var j2 := JoinBy(parts[2..], c);
    JoinByCons(parts[1..], c);
    assert parts[1..][1..] == parts[2..];
    var j1 := JoinBy(parts[1..], c);
    JoinByCons(parts, c);
    assert j1 == parts[1] + [c] + (parts[2] + [c] + tail);
  }

  /** Joining two or more pieces: the first, a separator, and the join of the rest. */
  lemma JoinByCons(parts: seq<string>, c: char)
    requires |parts| >= 2
    ensures JoinBy(parts, c) == parts[0] + [c] + JoinBy(parts[1..], c)
  {
  }

  /** Three separator-free pieces joined by two separators hold exactly two. */
  lemma CountTwoSeparators(a: string, b: string, d: string, c: char)
    requires c !in a && c !in b && c !in d
    ensures Count(a + [c] + b + [c] + d, c) == 2
  {
    CountAppend(a + [c] + b + [c], d, c);
    CountAppend(a + [c] + b, [c], c);
    CountAppend(a + [c], b, c);
    CountAppend(a, [c], c);
    CountAbsent(a, c);
    CountAbsent(b, c);
    CountAbsent(d, c);
  }

  /** An id parses exactly when it has at least three underscores; the key has exactly
      two, and key, underscore and timestamps give the id back. */
  lemma RecordingIdRoundTrip(rid: string)
    ensures ParseRecordingId(rid).Some? <==> Count(rid, '_') >= 3
    ensures ParseRecordingId(rid).Some? ==>
              && ParseRecordingId(rid).value.key + "_" + ParseRecordingId(rid).value.timestamps == rid
              && Count(ParseRecordingId(rid).value.key, '_') == 2
  {
    var parts := Split(rid, '_');
    SplitLength(rid, '_');
    if |parts| >= 4 {
      JoinSplit(rid, '_');
      JoinByFirstThree(parts, '_');
      CountTwoSeparators(parts[0], parts[1], parts[2], '_');
    }
  }

  /** One append: `text` goes to the end of the file at `path`. */
  datatype Write = Write(path: string, text: string)

  /** The directory of a session: `join(out, subdir, speaker, key)`. */
  function SessionDir(outputBase: string, subdir: string, speaker: string, key: string): string
  {
    JoinAll(outputBase, [subdir, speaker, key])
  }

  /** The transcript file of a session and speaker inside that directory. */
  function TranscriptPath(outputBase: string, subdir: string, speaker: string, key: string): string
  {
    Join(SessionDir(outputBase, subdir, speaker, key), speaker + "-" + key + ".trans.txt")
  }

  /** The utterance line: speaker, session key and timestamps, then the text. */
  function UtteranceLine(speaker: string, id: RecordingId, text: string): string
  {
    speaker + "-" + id.key + "-" + id.timestamps + " " + text + "\n"
  }

  /** The entry's newlines: its own terminator plus those its fields carry. */
  lemma UtteranceNewlines(speaker: string, id: RecordingId, text: string)
    ensures Count(UtteranceLine(speaker, id, text), '\n')
            == 1 + Count(speaker, '\n') + Count(id.key, '\n') + Count(id.timestamps, '\n') + Count(text, '\n')
  {
    var a := speaker + "-";
    var b := a + id.key + "-";
    var c := b + id.timestamps + " ";
    var d := c + text;
    CountAppend(d, "\n", '\n');
    CountAppend(c, text, '\n');
    CountAppend(b + id.timestamps, " ", '\n');
    CountAppend(b, id.timestamps, '\n');
    CountAppend(a + id.key, "-", '\n');
    CountAppend(a, id.key, '\n');
    CountAppend(speaker, "-", '\n');
    assert Count("-", '\n') == 0 by { CountAbsent("-", '\n'); }
    assert Count(" ", '\n') == 0 by { CountAbsent(" ", '\n'); }
    assert Count("\n", '\n') == 1 by { assert "\n"[1..] == ""; }
  }

  /** Each write appends at least one physical line, and exactly one when neither the
      speaker, the session key, the timestamps nor the text holds a newline. */
  lemma UtteranceIsOneLine(speaker: string, id: RecordingId, text: string)
    ensures Count(UtteranceLine(speaker, id, text), '\n') >= 1
    ensures Count(UtteranceLine(speaker, id, text), '\n') == 1
            <==> '\n' !in speaker && '\n' !in id.key && '\n' !in id.timestamps && '\n' !in text
  {
    UtteranceNewlines(speaker, id, text);
    CountZero(speaker, '\n');
    CountZero(id.key, '\n');
    CountZero(id.timestamps, '\n');
    CountZero(text, '\n');
  }

  /** The speaker of a decoded line, `unknown_speaker` when it has none. */
  function SpeakerOf(fields: map<string, Value>): string
    requires "speaker" in fields ==> fields["speaker"].Str?
  {
    if "speaker" in fields then fields["speaker"].s else UnknownSpeaker
  }

  /** The text of a decoded line, "" when it has none. */
  function TextOf(fields: map<string, Value>): string
  {
    if "text" in fields then Render(fields["text"]) else ""
  }

  /** What the body of the `try` does with one line: the append it makes, or `None`
      when it `continue`s or raises before writing. The recording id must be a string
      (`split`), the speaker, when present, must be a string (`os.path.join`); any
      text is written as `str()` renders it. A NUL character in the session
      directory or the transcript path makes `os.makedirs` or `open` raise, so the
      line is skipped; other failures of those two calls are not tracked. */
  function TranscriptWrite(line: Line, outputBase: string, subdir: string): (w: Option<Write>)
  {
    match line
    case Undecodable => None
    case Object(fields) =>
      if "recording_id" !in fields || !fields["recording_id"].Str? then None
      else if "speaker" in fields && !fields["speaker"].Str? then None
      else
        var speaker := SpeakerOf(fields);
        match ParseRecordingId(fields["recording_id"].s)
        case None => None
        case Some(id) =>
          if !Creatable(outputBase, subdir, speaker, id.key) then None
          else Some(Write(TranscriptPath(outputBase, subdir, speaker, id.key), UtteranceLine(speaker, id, TextOf(fields))))
  }

  /** Neither the session directory handed to `os.makedirs` nor the transcript path
      handed to `open` holds a NUL character, which both calls reject. */
  predicate Creatable(outputBase: string, subdir: string, speaker: string, key: string)
  {
    '\0' !in SessionDir(outputBase, subdir, speaker, key) && '\0' !in TranscriptPath(outputBase, subdir, speaker, key)
  }

  /** A NUL in the speaker or the session key reaches the transcript path, so such a
      line is skipped. */
  lemma NulNotCreatable(outputBase: string, subdir: string, speaker: string, key: string)
    requires '\0' in speaker || '\0' in key
    ensures !Creatable(outputBase, subdir, speaker, key)
  {
    var name := speaker + "-" + key + ".trans.txt";
    var path := TranscriptPath(outputBase, subdir, speaker, key);
    JoinShape(SessionDir(outputBase, subdir, speaker, key), name);
    var k: int;
    if '\0' in speaker {
      k :| 0 <= k < |speaker| && speaker[k] == '\0';
    } else {
      var j :| 0 <= j < |key| && key[j] == '\0';
      k := |speaker| + 1 + j;
    }
    assert name[k] == '\0';
    assert path[|path| - |name| + k] == '\0';
  }

  /** Components free of NUL give NUL-free paths. */
  lemma NulFreeCreatable(outputBase: string, subdir: string, speaker: string, key: string)
    requires '\0' !in outputBase && '\0' !in subdir && '\0' !in speaker && '\0' !in key
    ensures Creatable(outputBase, subdir, speaker, key)
  {
    var parts := [subdir, speaker, key];
    JoinAllKeepsOut(outputBase, parts, '\0');
    var name := speaker + "-" + key + ".trans.txt";
    assert '\0' !in ".trans.txt";
    assert '\0' !in name;
    JoinKeepsOut(SessionDir(outputBase, subdir, speaker, key), name, '\0');
  }

  /** A line writes exactly when it is an object whose recording id is a string with at
      least three underscores, whose speaker, if any, is a string, and whose paths
      hold no NUL. It then appends
      `speaker-id text` to the session file, where the id is the recording id with its
      third underscore turned into '-'. */
  lemma TranscriptWriteCases(line: Line, outputBase: string, subdir: string)
    ensures TranscriptWrite(line, outputBase, subdir).Some? <==>
              && line.Object?
              && "recording_id" in line.fields && line.fields["recording_id"].Str?
              && ("speaker" in line.fields ==> line.fields["speaker"].Str?)
              && Count(line.fields["recording_id"].s, '_') >= 3
              && ParseRecordingId(line.fields["recording_id"].s).Some?
              && Creatable(outputBase, subdir, SpeakerOf(line.fields), ParseRecordingId(line.fields["recording_id"].s).value.key)
    ensures TranscriptWrite(line, outputBase, subdir).Some? ==>
              var w := TranscriptWrite(line, outputBase, subdir).value;
              var rid := line.fields["recording_id"].s;
              var speaker := SpeakerOf(line.fields);
              exists key: string, timestamps: string ::
                && key + "_" + timestamps == rid
                && Count(key, '_') == 2
                && w.path == TranscriptPath(outputBase, subdir, speaker, key)
                && w.text == speaker + "-" + key + "-" + timestamps + " " + TextOf(line.fields) + "\n"
  {
    if line.Object? && "recording_id" in line.fields && line.fields["recording_id"].Str? {
      var rid := line.fields["recording_id"].s;
      RecordingIdRoundTrip(rid);
      if TranscriptWrite(line, outputBase, subdir).Some? {
        var id := ParseRecordingId(rid).value;
        assert id.key + "_" + id.timestamps == rid;
      }
    }
  }

  /** A recording id with fewer than four pieces writes nothing. */
  lemma MalformedIdSkipped(line: Line, outputBase: string, subdir: string)
    requires line.Object? && "recording_id" in line.fields && line.fields["recording_id"].Str?
    requires |Split(line.fields["recording_id"].s, '_')| < 4
    ensures TranscriptWrite(line, outputBase, subdir) == None
  {
  }

  /** A line with no speaker and no text is filed under `unknown_speaker` with an
      empty transcript. */
  lemma DefaultsApplied(rid: string, outputBase: string, subdir: string)
    requires Count(rid, '_') >= 3
    requires '\0' !in rid && '\0' !in outputBase && '\0' !in subdir
    ensures ParseRecordingId(rid).Some?
    ensures var line := Object(map["recording_id" := Str(rid)]);
            var id := ParseRecordingId(rid).value;
            TranscriptWrite(line, outputBase, subdir) ==
              Some(Write(TranscriptPath(outputBase, subdir, "unknown_speaker", id.key),
                         UtteranceLine("unknown_speaker", id, "")))
  {
    RecordingIdRoundTrip(rid);
    var line := Object(map["recording_id" := Str(rid)]);
    assert "speaker" !in line.fields && "text" !in line.fields;
    var id := ParseRecordingId(rid).value;
    KeyOfNulFreeId(rid);
    UnknownSpeakerCreatable(outputBase, subdir, id.key);
  }

  /** The default speaker holds no NUL; proved apart so that its characters are
      evaluated away from the path facts. */
  lemma UnknownSpeakerCreatable(outputBase: string, subdir: string, key: string)
    requires '\0' !in outputBase && '\0' !in subdir && '\0' !in key
    ensures Creatable(outputBase, subdir, UnknownSpeaker, key)
  {
    assert '\0' !in UnknownSpeaker;
    NulFreeCreatable(outputBase, subdir, UnknownSpeaker, key);
  }

  /** With plain components the session directory is `out/subdir/speaker/key`. */
  lemma SessionDirShape(outputBase: string, subdir: string, speaker: string, key: string)
    requires Plain(outputBase) && Plain(subdir) && Plain(speaker) && Plain(key)
    ensures SessionDir(outputBase, subdir, speaker, key) == outputBase + "/" + subdir + "/" + speaker + "/" + key
    ensures Plain(SessionDir(outputBase, subdir, speaker, key))
  {
    var a := Join(outputBase, subdir);
    var b := Join(a, speaker);
    var dir := Join(b, key);
    assert [subdir, speaker, key][1..] == [speaker, key] && [speaker, key][1..] == [key] && [key][1..] == [];
    assert JoinAll(outputBase, [subdir, speaker, key]) == JoinAll(a, [speaker, key]);
    assert JoinAll(a, [speaker, key]) == JoinAll(b, [key]);
    assert JoinAll(b, [key]) == dir;
    JoinPlain(outputBase, subdir);
    JoinPlain(a, speaker);
    JoinPlain(b, key);
  }

  /** ... and the transcript file `speaker-key.trans.txt` sits directly inside it. */
  lemma TranscriptPathShape(outputBase: string, subdir: string, speaker: string, key: string)
    requires Plain(outputBase) && Plain(subdir) && Plain(speaker) && Plain(key)
    ensures TranscriptPath(outputBase, subdir, speaker, key) ==
              outputBase + "/" + subdir + "/" + speaker + "/" + key + "/" + speaker + "-" + key + ".trans.txt"
  {
    var dir := SessionDir(outputBase, subdir, speaker, key);
    var name := speaker + "-" + key + ".trans.txt";
    SessionDirShape(outputBase, subdir, speaker, key);
    assert name[0] == speaker[0];
    assert Join(dir, name) == dir + "/" + name;
  }

  /** An id `S_D_Q_T1_..._Tn` built from underscore-free fields has session key
      `S_D_Q` and timestamps `T1_..._Tn`. */
  lemma ParseOfFields(session: string, date: string, sequence: string, stamps: seq<string>)
    requires '_' !in session && '_' !in date && '_' !in sequence
    requires |stamps| >= 1 && forall i :: 0 <= i < |stamps| ==> '_' !in stamps[i]
    ensures ParseRecordingId(JoinBy([session, date, sequence] + stamps, '_')) ==
              Some(RecordingId(session + "_" + date + "_" + sequence, JoinBy(stamps, '_')))
  {
    var parts := [session, date, sequence] + stamps;
    FieldsAreFree(session, date, sequence, stamps);
    SplitJoin(parts, '_');
    assert parts[3..] == stamps;
    assert parts[0] == session && parts[1] == date && parts[2] == sequence;
  }

  lemma FieldsAreFree(session: string, date: string, sequence: string, stamps: seq<string>)
    requires '_' !in session && '_' !in date && '_' !in sequence
    requires forall i :: 0 <= i < |stamps| ==> '_' !in stamps[i]
    ensures forall i :: 0 <= i < |[session, date, sequence] + stamps| ==> '_' !in ([session, date, sequence] + stamps)[i]
  {
    var parts := [session, date, sequence] + stamps;
    forall i | 0 <= i < |parts|
      ensures '_' !in parts[i]
    {
      if i >= 3 {
        assert parts[i] == stamps[i - 3];
      }
    }
  }

  /** A well-formed line with plain components: the file is
      `out/split/speaker/S_D_Q/speaker-S_D_Q.trans.txt` and the line appended to it is
      `speaker-S_D_Q-T1_..._Tn text`. */
  lemma WellFormedLine(session: string, date: string, sequence: string, stamps: seq<string>,
                       speaker: string, text: string, outputBase: string, subdir: string)
    requires '_' !in session && '_' !in date && '_' !in sequence
    requires |stamps| >= 1 && forall i :: 0 <= i < |stamps| ==> '_' !in stamps[i]
    requires Plain(session + "_" + date + "_" + sequence)
    requires Plain(outputBase) && Plain(subdir) && Plain(speaker)
    requires '\0' !in session && '\0' !in date && '\0' !in sequence && forall i :: 0 <= i < |stamps| ==> '\0' !in stamps[i]
    requires '\0' !in outputBase && '\0' !in subdir && '\0' !in speaker
    ensures var rid := JoinBy([session, date, sequence] + stamps, '_');
            var key := session + "_" + date + "_" + sequence;
            var line := Object(map["recording_id" := Str(rid), "speaker" := Str(speaker), "text" := Str(text)]);
            TranscriptWrite(line, outputBase, subdir) ==
              Some(Write(outputBase + "/" + subdir + "/" + speaker + "/" + key + "/" + speaker + "-" + key + ".trans.txt",
                         speaker + "-" + key + "-" + JoinBy(stamps, '_') + " " + text + "\n"))
  {
    var rid := JoinBy([session, date, sequence] + stamps, '_');
    var key := session + "_" + date + "_" + sequence;
    ParseOfFields(session, date, sequence, stamps);
    IdNulFree(session, date, sequence, stamps);
    FullLine(rid, speaker, text, outputBase, subdir);
    TranscriptPathShape(outputBase, subdir, speaker, key);
  }

  /** A line carrying all three fields as strings writes with its own speaker and text. */
  lemma FullLine(rid: string, speaker: string, text: string, outputBase: string, subdir: string)
    requires ParseRecordingId(rid).Some?
    requires '\0' !in rid && '\0' !in speaker && '\0' !in outputBase && '\0' !in subdir
    ensures var line := Object(map["recording_id" := Str(rid), "speaker" := Str(speaker), "text" := Str(text)]);
            var id := ParseRecordingId(rid).value;
            TranscriptWrite(line, outputBase, subdir) ==
              Some(Write(TranscriptPath(outputBase, subdir, speaker, id.key), UtteranceLine(speaker, id, text)))
  {
    var fields := map["recording_id" := Str(rid), "speaker" := Str(speaker), "text" := Str(text)];
    assert fields["recording_id"] == Str(rid) && fields["speaker"] == Str(speaker) && fields["text"] == Str(text);
    assert SpeakerOf(fields) == speaker && TextOf(fields) == text;
    KeyOfNulFreeId(rid);
    NulFreeCreatable(outputBase, subdir, speaker, ParseRecordingId(rid).value.key);
  }

  /** Pieces free of NUL join into a NUL-free recording id. */
  lemma IdNulFree(session: string, date: string, sequence: string, stamps: seq<string>)
    requires '\0' !in session && '\0' !in date && '\0' !in sequence && forall i :: 0 <= i < |stamps| ==> '\0' !in stamps[i]
    ensures '\0' !in JoinBy([session, date, sequence] + stamps, '_')
  {
    var parts := [session, date, sequence] + stamps;
    forall i | 0 <= i < |parts|
      ensures '\0' !in parts[i]
    {
      if i == 0 {
        assert parts[i] == session;
      } else if i == 1 {
        assert parts[i] == date;
      } else if i == 2 {
        assert parts[i] == sequence;
      } else {
        assert parts[i] == stamps[i - 3];
      }
    }
    JoinByKeepsOut(parts, '_', '\0');
  }

  /** The session key is a prefix of the recording id, so it inherits NUL-freedom. */
  lemma KeyOfNulFreeId(rid: string)
    requires ParseRecordingId(rid).Some? && '\0' !in rid
    ensures '\0' !in ParseRecordingId(rid).value.key
  {
    var id := ParseRecordingId(rid).value;
    RecordingIdRoundTrip(rid);
    assert id.key + "_" + id.timestamps == rid;
    forall j | 0 <= j < |id.key|
      ensures id.key[j] != '\0'
    {
      assert id.key[j] == rid[j];
    }
  }

  /** A line whose speaker holds a NUL writes nothing, whatever else it carries. */
  lemma NulSpeakerSkipped(rid: string, speaker: string, text: string, outputBase: string, subdir: string)
    requires '\0' in speaker
    ensures TranscriptWrite(Object(map["recording_id" := Str(rid), "speaker" := Str(speaker), "text" := Str(text)]),
                            outputBase, subdir) == None
  {
    var fields := map["recording_id" := Str(rid), "speaker" := Str(speaker), "text" := Str(text)];
    assert fields["recording_id"] == Str(rid) && fields["speaker"] == Str(speaker);
    assert SpeakerOf(fields) == speaker;
    match ParseRecordingId(rid)
    case None =>
    case Some(id) => NulNotCreatable(outputBase, subdir, speaker, id.key);
  }

  /** The transcript tree: the lines appended so far to each file. */
  type Tree = map<string, seq<string>>

  /** The lines of the file at `path` ([] when it does not exist). */
  function Contents(tree: Tree, path: string): seq<string>
  {
    if path in tree then tree[path] else []
  }

  /** `open(path, 'a').write(text)`. */
  function Append(tree: Tree, w: Write): (r: Tree)
    ensures r.Keys == tree.Keys + {w.path}
    ensures Contents(r, w.path) == Contents(tree, w.path) + [w.text]
    ensures forall p :: p != w.path ==> Contents(r, p) == Contents(tree, p)
  {
    tree[w.path := Contents(tree, w.path) + [w.text]]
  }

  /** The effect of one line on the tree: its append, if it makes one. */
  function Step(tree: Tree, o: Option<Write>): Tree
  {
    match o
    case None => tree
    case Some(w) => Append(tree, w)
  }

  /** The appends one line makes, as a sequence of zero or one. */
  function Emitted(o: Option<Write>): seq<Write>
  {
    match o
    case None => []
    case Some(w) => [w]
  }

  /** The appends made by a run of lines, each line handled by `write` on its own. */
  function WritesOf(lines: seq<Line>, write: Line -> Option<Write>): seq<Write>
    decreases |lines|
  {
    if |lines| == 0 then []
    else WritesOf(lines[..|lines| - 1], write) + Emitted(write(lines[|lines| - 1]))
  }

  /** The tree after a run of lines, each line handled by `write` on its own. */
  function ApplyLines(tree: Tree, lines: seq<Line>, write: Line -> Option<Write>): (r: Tree)
    ensures tree.Keys <= r.Keys
    decreases |lines|
  {
    if |lines| == 0 then tree
    else Step(ApplyLines(tree, lines[..|lines| - 1], write), write(lines[|lines| - 1]))
  }

  /** The handling of one line of a shard filed under `subdir`. */
  function WriteFor(outputBase: string, subdir: string): Line -> Option<Write>
  {
    line => TranscriptWrite(line, outputBase, subdir)
  }

  /** The loop over the lines of one file. */
  function ProcessLines(tree: Tree, lines: seq<Line>, outputBase: string, subdir: string): Tree
  {
    ApplyLines(tree, lines, WriteFor(outputBase, subdir))
  }

  /** Reference: the appends the lines make, in order, with the skipped lines dropped. */
  function Writes(lines: seq<Line>, outputBase: string, subdir: string): seq<Write>
  {
    WritesOf(lines, WriteFor(outputBase, subdir))
  }

  /** The texts of the appends that target `path`, in order. */
  function TextsTo(ws: seq<Write>, path: string): seq<string>
    decreases |ws|
  {
    if |ws| == 0 then []
    else TextsTo(ws[..|ws| - 1], path) + (if ws[|ws| - 1].path == path then [ws[|ws| - 1].text] else [])
  }

  lemma {:induction false} TextsToAppend(a: seq<Write>, b: seq<Write>, path: string)
    ensures TextsTo(a + b, path) == TextsTo(a, path) + TextsTo(b, path)
    decreases |b|
  {
    if |b| == 0 {
      assert a + b == a;
    } else {
      var n := |b| - 1;
      assert (a + b)[..|a + b| - 1] == a + b[..n];
      assert (a + b)[|a + b| - 1] == b[n];
      TextsToAppend(a, b[..n], path);
    }
  }

  /** Two rounds of appends to a file add up to one round of all of them. */
  lemma ContentsChain(t0: Tree, t1: Tree, t2: Tree, first: seq<Write>, second: seq<Write>, path: string)
    requires Contents(t1, path) == Contents(t0, path) + TextsTo(first, path)
    requires Contents(t2, path) == Contents(t1, path) + TextsTo(second, path)
    ensures Contents(t2, path) == Contents(t0, path) + TextsTo(first + second, path)
  {
    TextsToAppend(first, second, path);
  }

  /** One step adds the text of its append to the file it targets and nothing else. */
  lemma StepContents(tree: Tree, o: Option<Write>, path: string)
    ensures Contents(Step(tree, o), path) == Contents(tree, path) + TextsTo(Emitted(o), path)
  {
    if o.Some? {
      assert Emitted(o)[..0] == [];
    }
  }

  /** Applying lines to a tree appends, to each file, the texts aimed at it. */
  lemma {:induction false} ApplyLinesContents(tree: Tree, lines: seq<Line>, write: Line -> Option<Write>, path: string)
    ensures Contents(ApplyLines(tree, lines, write), path) == Contents(tree, path) + TextsTo(WritesOf(lines, write), path)
    decreases |lines|
  {
    if |lines| > 0 {
      var n := |lines| - 1;
      var o := write(lines[n]);
      assert ApplyLines(tree, lines, write) == Step(ApplyLines(tree, lines[..n], write), o);
      assert WritesOf(lines, write) == WritesOf(lines[..n], write) + Emitted(o);
      var before := ApplyLines(tree, lines[..n], write);
      ApplyLinesContents(tree, lines[..n], write, path);
      StepContents(before, o, path);
      ContentsChain(tree, before, ApplyLines(tree, lines, write), WritesOf(lines[..n], write), Emitted(o), path);
    }
  }

  /** Applying two runs of lines in turn is applying them together. */
  lemma {:induction false} ApplyLinesCompose(tree: Tree, a: seq<Line>, b: seq<Line>, write: Line -> Option<Write>)
    ensures ApplyLines(tree, a + b, write) == ApplyLines(ApplyLines(tree, a, write), b, write)
    decreases |b|
  {
    if |b| == 0 {
      assert a + b == a;
    } else {
      var n := |b| - 1;
      assert (a + b)[..|a + b| - 1] == a + b[..n];
      assert (a + b)[|a + b| - 1] == b[n];
      ApplyLinesCompose(tree, a, b[..n], write);
    }
  }

  /** Append semantics: every file keeps what it held as a prefix and gains the lines
      aimed at it, in input order; no other file is touched. */
  lemma ProcessLinesContents(tree: Tree, lines: seq<Line>, outputBase: string, subdir: string, path: string)
    ensures Contents(ProcessLines(tree, lines, outputBase, subdir), path) ==
              Contents(tree, path) + TextsTo(Writes(lines, outputBase, subdir), path)
  {
    ApplyLinesContents(tree, lines, WriteFor(outputBase, subdir), path);
  }

  /** Handling two stretches of lines in turn is handling them together. */
  lemma ProcessLinesCompose(tree: Tree, a: seq<Line>, b: seq<Line>, outputBase: string, subdir: string)
    ensures ProcessLines(tree, a + b, outputBase, subdir) ==
              ProcessLines(ProcessLines(tree, a, outputBase, subdir), b, outputBase, subdir)
  {
    ApplyLinesCompose(tree, a, b, WriteFor(outputBase, subdir));
  }

  /** A line that raises or is malformed only costs itself: the lines around it are
      handled as if it were not there. */
  lemma SkippedLineInvisible(tree: Tree, a: seq<Line>, bad: Line, b: seq<Line>, outputBase: string, subdir: string)
    requires TranscriptWrite(bad, outputBase, subdir).None?
    ensures ProcessLines(tree, a + [bad] + b, outputBase, subdir) == ProcessLines(tree, a + b, outputBase, subdir)
  {
    ProcessLinesCompose(tree, a + [bad], b, outputBase, subdir);
    ProcessLinesCompose(tree, a, b, outputBase, subdir);
    assert (a + [bad])[..|a + [bad]| - 1] == a;
  }

  /** A second run over the same lines without clearing the tree appends every line a
      second time: the builder is not idempotent. */
  lemma RerunDuplicates(tree: Tree, lines: seq<Line>, outputBase: string, subdir: string, path: string)
    ensures var once := ProcessLines(tree, lines, outputBase, subdir);
            var texts := TextsTo(Writes(lines, outputBase, subdir), path);
            Contents(ProcessLines(once, lines, outputBase, subdir), path) == Contents(tree, path) + texts + texts
  {
    var once := ProcessLines(tree, lines, outputBase, subdir);
    ProcessLinesContents(tree, lines, outputBase, subdir, path);
    ProcessLinesContents(once, lines, outputBase, subdir, path);
  }

  /** The prefix and suffix that `subdir_name` strips from a file name. */
  const SupervisionsPrefix: string := "basqueP_supervisions_"
  const JsonlSuffix: string := ".jsonl"

  /** `file_name.replace("basqueP_supervisions_", "").replace(".jsonl", "")`. */
  function SubdirName(fileName: string): string
  {
    ReplaceAll(ReplaceAll(fileName, SupervisionsPrefix, ""), JsonlSuffix, "")
  }

  /** For a name `basqueP_supervisions_<part>.jsonl` whose part has no dot and no
      second copy of the prefix, the subdirectory is the part. */
  lemma SubdirNameOfShard(part: string)
    requires '.' !in part && !Contains(part, SupervisionsPrefix)
    ensures SubdirName(SupervisionsPrefix + part + JsonlSuffix) == part
  {
    var pre, suf := SupervisionsPrefix, JsonlSuffix;
    assert |suf| < |pre| && suf[0] == '.' && '.' !in pre;
    ShortNoContains(suf, pre);
    StripPrefixAndSuffix(pre, part, suf);
  }

  /** One input shard: its path and its lines. */
  datatype Shard = Shard(path: string, lines: seq<Line>)

  /** The subdirectory a shard's lines are filed under. */
  function ShardSubdir(shard: Shard): string
  {
    SubdirName(Basename(shard.path))
  }

  /** The outer loop: each shard is handled into its own subdirectory, in order. */
  function ProcessShards(tree: Tree, shards: seq<Shard>, outputBase: string): (r: Tree)
    ensures tree.Keys <= r.Keys
    decreases |shards|
  {
    if |shards| == 0 then tree
    else
      var last := shards[|shards| - 1];
      ProcessLines(ProcessShards(tree, shards[..|shards| - 1], outputBase), last.lines, outputBase, ShardSubdir(last))
  }

  /** Reference: all appends of all shards, shard after shard. */
  function ShardWrites(shards: seq<Shard>, outputBase: string): seq<Write>
    decreases |shards|
  {
    if |shards| == 0 then []
    else
      var last := shards[|shards| - 1];
      ShardWrites(shards[..|shards| - 1], outputBase) + Writes(last.lines, outputBase, ShardSubdir(last))
  }

  /** After all shards every file holds its old lines and then the lines of every
      shard aimed at it, in shard order and line order. */
  lemma {:induction false} ProcessShardsContents(tree: Tree, shards: seq<Shard>, outputBase: string, path: string)
    ensures Contents(ProcessShards(tree, shards, outputBase), path) ==
              Contents(tree, path) + TextsTo(ShardWrites(shards, outputBase), path)
    decreases |shards|
  {
    if |shards| > 0 {
      var n := |shards| - 1;
      var last := shards[n];
      var subdir := ShardSubdir(last);
      var before := ProcessShards(tree, shards[..n], outputBase);
      var ws := ShardWrites(shards[..n], outputBase);
      var more := Writes(last.lines, outputBase, subdir);
      assert ProcessShards(tree, shards, outputBase) == ProcessLines(before, last.lines, outputBase, subdir);
      assert ShardWrites(shards, outputBase) == ws + more;
      ProcessShardsContents(tree, shards[..n], outputBase, path);
      ProcessLinesContents(before, last.lines, outputBase, subdir, path);
      ContentsChain(tree, before, ProcessShards(tree, shards, outputBase), ws, more, path);
    }
  }
}
